=== FILE: README.md ===
# Gem marketplace services: a Dafny model

This project models the deterministic core of the gem marketplace's Python
services and proves properties about it:

- **LLM gateway** (`services/llm_gateway/main.py`). It covers the `/rank` and
  `/suggest` endpoints minus the model call:
  - the API-key gate (503);
  - cutting the JSON out of a fenced reply (with Python's `find` giving -1
    and the slice that follows);
  - checking for `ranked_gems`;
  - defaulting `reasoning`, `confidence` and the suggestion fields, where an
    absent key takes the default and a JSON `null` does not;
  - the 500 answers a `null` confidence or suggestion list leads to;
  - clamping the confidence to [0, 1];
  - the alphabetical fallback and the popularity fallback (a stable
    `sorted(..., reverse=True)`);
  - the fixed fallback suggestions.
- **Vector store** (`services/vector_store/ingest.py`):
  - the embedding text built by `_create_embedding_text`;
  - the bookkeeping of `add_gem`, which is the index's vector counter plus
    the SQLite `gems` table under `INSERT OR REPLACE` with `AUTOINCREMENT`
    row ids;
  - the assembly of `search` results from the index's (score, id) hits;
  - `get_stats`.
- **The two mock registry APIs** (`services/simple_api.py`,
  `services/mock_api.py`): listing, fetching by id and creating gems over
  one growing gem list. Ids are `len + 1`, and a lookup returns the first
  match. `simple_api` takes the URL path the way `urlparse(...).path` does
  and reads the id with `int()` on the last path segment.

Modules:

| module | file | content |
|---|---|---|
| `Wrappers` | wrappers.dfy | `Option` and `.get`-style defaults |
| `Text` | text.dfy | Python's `in`, `find`, slicing with negative bounds, `strip`, `join`, `split`, `split(c)[-1]` |
| `Sorting` | sorting.dfy | stable insertion sort under a total preorder, uniqueness of sorted permutations, lexicographic order |
| `JsonList` | json_list.dfy | `json.dumps` / `json.loads` restricted to lists of strings |
| `Numerals` | numerals.dfy | `int()` on sign-and-digits strings, `str()` of naturals |
| `LlmGateway` | llm_gateway.dfy | `/rank`, `/suggest` |
| `VectorStore` | vector_store.dfy | embedding text, metadata table, search results, statistics |
| `Registry` | registry.dfy | the gem record and create/find shared by both mock APIs |
| `SimpleApi` | simple_api.dfy | `do_GET`, `do_POST` |
| `MockApi` | mock_api.dfy | `get_gems`, `get_gem`, `create_gem` |

Some outside effects are parameters:

- The model call is an `ApiOutcome`: an API error, or the reply text.
- `json.loads` followed by the field lookups is a `parse` function. It
  returns the keys of the reply object, each absent, `null` or a value; or
  an error the endpoint's parse-error handler catches; or any other
  exception, which the generic handler turns into a 500.
- The embedding model and the FAISS search are the list of hits the index
  returned.
- Whether the optional ML packages imported (`HAS_DEPENDENCIES`) is a flag.
- The current time used as `last_updated`'s default is the string `now`.

## Model

| member | source | states |
|---|---|---|
| Text.Find | services/llm_gateway/main.py:189-190 | `find` gives the first occurrence at or after `start`, and -1 exactly when there is none |
| Text.ContainsIffFound | services/llm_gateway/main.py:188-189 | `pat in s` holds exactly when `find` does not give -1 |
| Text.SliceBound | services/llm_gateway/main.py:191 | Python's normalisation of a slice bound: negative bounds count from the end, and bounds are clamped to the string |
| Text.SliceToMinusOne | services/llm_gateway/main.py:190-191 | slicing up to `find`'s -1 drops the final character, or gives the empty string when the start is already past it |
| Text.Strip | services/llm_gateway/main.py:191 | `strip()` gives a contiguous piece of the input with no leading or trailing whitespace, having removed only whitespace |
| Text.SplitJoin | services/simple_api.py:62 | splitting on a separator the parts do not contain gives back the joined parts |
| Text.AfterLast | services/simple_api.py:62 | `split('/')[-1]` is the longest suffix without `/`, preceded by `/` whenever it is not the whole string |
| Text.CutAt | services/simple_api.py:54 | the text before the first occurrence of a character, which is not in it, and which is followed by that character unless the string ended |
| Sorting.InsertionSort | services/llm_gateway/main.py:212 | the result is a permutation of the input and is sorted by the given total preorder |
| Sorting.SortedPermutationUnique | services/llm_gateway/main.py:222-228 | two sorted permutations of the same list are equal when the order is antisymmetric on it |
| JsonList.RoundTrip | services/vector_store/ingest.py:155 | decoding the JSON text of a list of strings gives the list back |
| Numerals.ParseNat | services/simple_api.py:62 | a digit string parses exactly when it is non-empty and all ASCII digits, and its value is the positional value of the digits, leading zeros included |
| Numerals.LeadingZero | services/simple_api.py:62 | prefixing a non-empty digit string with `"0"` does not change what it parses to |
| Numerals.ParseInt | services/simple_api.py:62 | `int()` accepts an optional sign followed by at most 4300 digits, giving their value, negated for `-`, and fails on anything else |
| Numerals.ParseToDecimal | services/simple_api.py:62 | `int(str(n)) == n` for every natural `n` of at most 4300 digits; longer numerals fail |
| LlmGateway.ExtractJsonText | services/llm_gateway/main.py:186-195 | a reply with no fence is handed to the parser unchanged |
| LlmGateway.ExtractJsonFenced | services/llm_gateway/main.py:188-191 | with a `json` fence, the parser gets the stripped text between the first one and the next fence, even when a bare fence comes earlier |
| LlmGateway.ExtractJsonFencedUnclosed | services/llm_gateway/main.py:188-191 | an unclosed `json` fence hands on the stripped rest of the reply less its final character |
| LlmGateway.ExtractBareFenced | services/llm_gateway/main.py:192-195 | without a `json` fence, the parser gets the stripped text between the first two bare fences |
| LlmGateway.ExtractBareFencedUnclosed | services/llm_gateway/main.py:192-195 | an unclosed bare fence hands on the stripped rest of the reply less its final character |
| LlmGateway.ClampConfidence | services/llm_gateway/main.py:206 | the confidence lies in [0, 1]: 0.8 when the key is absent, unchanged inside the range, 0 below it, 1 above it |
| LlmGateway.AlphabeticalRanking | services/llm_gateway/main.py:212 | the fallback ranking is a permutation of the requested names in ascending order |
| LlmGateway.AlphabeticalRankingUnique | services/llm_gateway/main.py:212 | any ascending permutation of the requested names is the fallback ranking |
| LlmGateway.PopularityOrder | services/llm_gateway/main.py:222-228 | the requested gems are rearranged by `downloads + 1000 * stars`, most popular first, with ties kept in request order |
| LlmGateway.PopularityOrderUnique | services/llm_gateway/main.py:222-228 | that arrangement is the only one sorted by (popularity descending, request position ascending) |
| LlmGateway.PopularityRanking | services/llm_gateway/main.py:222-228 | the popularity fallback is a permutation of the requested names, in the order of the arrangement above |
| LlmGateway.RankGems | services/llm_gateway/main.py:121-233 | `/rank` answers 503 exactly when no key is set, and otherwise answers or fails with 500. On an API error: the popularity fallback with confidence 0.5. On a parse error, a missing `ranked_gems` or a `null` one: an ascending permutation of the names with confidence 0.3, whose reasoning names the error. With `ranked_gems` present: a `null` confidence answers 500; otherwise the list, the reasoning (its default only when absent, None when `null`) and the clamped confidence. Any other exception answers 500 with its message |
| LlmGateway.FillSuggestion | services/llm_gateway/main.py:297-305 | a suggestion is rejected exactly when its name or keywords are `null`, with pydantic's error count; otherwise absent keys take `unknown`, empty, empty list, 0 and 0, and a `null` description or count stays None |
| LlmGateway.FillSuggestions | services/llm_gateway/main.py:296-306 | all suggestions are built, in reply order, exactly when each one can be; otherwise the error is the first rejected suggestion's |
| LlmGateway.SuggestionRoundTrip | services/llm_gateway/main.py:296-306 | suggestions written with every key present come back unchanged, `null` fields included |
| LlmGateway.SuggestGems | services/llm_gateway/main.py:239-355 | `/suggest` answers 503 exactly when no key is set, and otherwise answers or fails with 500. On an API error: the `bundler` fallback with 0.4 and its reasoning. On a parse error or a rejected suggestion: the `rails`/`sinatra` fallback with 0.3, whose reasoning names the error. A `null` suggestion list, or else a `null` confidence, answers 500. Otherwise: the built suggestions (none when the key is absent), the reasoning (default only when absent) and the clamped confidence |
| VectorStore.TruncateReadme | services/vector_store/ingest.py:184-187 | the README is cut to its first `min(2000, len)` characters |
| VectorStore.EmbeddingParts | services/vector_store/ingest.py:171-189 | the Gem, Description, Keywords and Documentation sections each appear exactly when their input is non-empty, in that order, each with its own body (keywords joined by `, `, README truncated) |
| VectorStore.EmbeddingText | services/vector_store/ingest.py:171-189 | the embedding text is empty exactly when every input is empty |
| VectorStore.EmbeddingTextContains | services/vector_store/ingest.py:171-189 | for every input, each rendered section is found in the embedding text: `Gem: <name>`, `Description: ...`, the keywords joined by `, `, and the truncated README |
| VectorStore.EmbeddingTextLines | services/vector_store/ingest.py:171-189 | when no input has a line break, the text's lines are exactly the rendered sections |
| Text.JoinContains | services/vector_store/ingest.py:189 | every part is found in `sep.join(parts)` |
| VectorStore.KeywordsColumn | services/vector_store/ingest.py:155 | the stored keywords column reads back as the keyword list, `[]` included |
| VectorStore.WithoutName | services/vector_store/ingest.py:146-150 | `OR REPLACE` keeps exactly the rows with another name |
| VectorStore.Lookup | services/vector_store/ingest.py:66 | a lookup by name finds a row with that name, or reports that no row has it |
| VectorStore.LookupFinds | services/vector_store/ingest.py:66 | with unique names, the lookup of a row's name gives that row |
| VectorStore.AddGem | services/vector_store/ingest.py:111-169 | without the dependencies, nothing changes and the result is -1. Otherwise the vector count grows by one, and the gem's row replaces any row with its name at the end of the table. That row takes a fresh row id, which is returned, the old vector count as its vector id, the readable keywords (`[]` for an absent or `None` list), each absent field's default (`now` for `last_updated`) and `NULL` for each field given as `None`. No other name's row changes |
| VectorStore.AddGemValid | services/vector_store/ingest.py:141-163 | adding keeps names and vector ids unique, vector ids within the index, row ids at most the last one handed out, and keywords readable |
| VectorStore.ReplayValid | services/vector_store/ingest.py:141-163 | after any additions the store is valid, the index holds one vector per addition, and rows never outnumber vectors |
| VectorStore.ReAddOrphansVector | services/vector_store/ingest.py:146-163 | re-adding a stored name keeps the row count, and the old vector stays in the index with no row pointing to it |
| VectorStore.AddGemStats | services/vector_store/ingest.py:258-270 | `total_gems <= index_size`. An addition raises `index_size` by one, and raises `total_gems` by one only for a new name |
| VectorStore.RowWithVector | services/vector_store/ingest.py:227-233 | the lookup by vector id gives a row holding that id, or reports that none does |
| VectorStore.RowWithVectorFinds | services/vector_store/ingest.py:227-233 | with unique vector ids, looking up a row's vector id gives that row |
| VectorStore.Collect | services/vector_store/ingest.py:223-248 | at most one result per hit, with ranks strictly increasing and within the hits consumed |
| VectorStore.CollectFails | services/vector_store/ingest.py:238 | assembling fails exactly when some usable hit's row has a keywords column that does not decode |
| VectorStore.CollectSound | services/vector_store/ingest.py:223-248 | every result copies the row of the hit at position `rank - 1`, with its decoded keywords and that hit's score |
| VectorStore.CollectComplete | services/vector_store/ingest.py:223-248 | every hit that is not -1 and has a row yields a result with its rank |
| VectorStore.Search | services/vector_store/ingest.py:191-250 | no results without the dependencies or with an empty index. On a valid store the search succeeds, with results that each describe their hit, in rank order |
| VectorStore.SearchComplete | services/vector_store/ingest.py:223-248 | every usable hit appears in the results at rank `i + 1` |
| VectorStore.AddThenSearch | services/vector_store/tests/test_ingest.py:180-186 | a hit on a just-added gem's vector finds that gem at the hit's rank, with its keywords, the hit's score, and every other field as stored: the default when absent, None when given as `None` |
| Registry.Create | services/simple_api.py:79-93 | a create appends one gem with id `len + 1` and zero counters, leaving the earlier gems alone. Each given field is stored as given, a `null` one as None, and only an absent one takes its default |
| Registry.FindById | services/simple_api.py:63 | the lookup gives the first gem with the id, or reports that none has it |
| Registry.FindSequential | services/mock_api.py:67-72 | with ids 1..n, id `i` finds the `i`-th gem, and nothing outside 1..n |
| Registry.CreateSequential | services/mock_api.py:74-91 | a create keeps the ids 1..n, and the new gem's id finds it |
| Registry.CreateAllSequential | services/mock_api.py:74-91 | any series of creates keeps ids 1..n and earlier gems in place, and appends the new gems in request order |
| SimpleApi.NetlocEnd | services/simple_api.py:54 | the network location after `//` runs to the first `/`, `?` or `#` |
| SimpleApi.SplitParams | services/simple_api.py:54 | the `;` parameters are cut at the first `;` of the last path segment; a path without `;` is unchanged |
| SimpleApi.UrlPath | services/simple_api.py:54 | the URL path holds no `?` or `#` |
| SimpleApi.UrlPathPlain | services/simple_api.py:54 | a path without query, fragment, parameters or leading `//` is its own URL path |
| SimpleApi.RequestPath | services/simple_api.py:53-54 | the path the handler receives never starts with `//`: a leading run of `/` becomes one, and other paths are kept |
| SimpleApi.RequestPathCollapses | services/simple_api.py:53-54 | any run of one or more leading slashes before a path reaches the handler as a single `/` |
| SimpleApi.ExtraSlashesIgnored | services/simple_api.py:53-74 | GET and POST of `//...//p` answer as for `/p`, so `//gems` lists and creates like `/gems` |
| SimpleApi.UrlPathDropsQuery | services/simple_api.py:54 | appending a query string to such a path does not change the URL path |
| SimpleApi.Route | services/simple_api.py:53-71 | `/health` and `/gems` answer 200. Under `/gems/`: an id that is not an integer answers 400 "Invalid gem ID", an id no gem has answers 404 "Gem not found", and otherwise the first gem with the id comes back with 200. Every other path answers 404 "Not found" |
| SimpleApi.GetIgnoresQuery | services/simple_api.py:54 | a GET answers the same with or without a query string |
| SimpleApi.HandlePost | services/simple_api.py:73-98 | 201 exactly for `/gems` with a JSON body, appending one gem with id `len + 1` made from the body as `Registry.Create` states. 400 "Invalid JSON" exactly for `/gems` with invalid JSON. 404 for every other path. The list is unchanged unless the answer is 201 |
| SimpleApi.ServeSequential | services/simple_api.py:73-98 | whatever requests arrive, the list only grows at its end and keeps ids 1..n |
| SimpleApi.ServedFromStart | services/simple_api.py:12-41 | from the starting list, the ids are always 1..n and the two initial gems stay first |
| SimpleApi.GetById | services/simple_api.py:60-69 | with ids 1..n, GET `/gems/<k>` answers gem `k` when it exists and 404 otherwise; an id of more than 4300 digits answers 400 |
| SimpleApi.CreatedIsFetchable | services/simple_api.py:80-94 | a gem created by POST is what GET of its id returns, unless the id has more than 4300 digits |
| SimpleApi.EmptyIdIsInvalid | services/simple_api.py:60-69 | GET `/gems/` answers 400 "Invalid gem ID" |
| MockApi.GetGems | services/mock_api.py:63-65 | the whole list, in insertion order |
| MockApi.GetGem | services/mock_api.py:67-72 | not-found exactly when no gem has the id; otherwise the first gem with it |
| MockApi.CreateGem | services/mock_api.py:74-91 | the new gem, with id `len + 1`, is appended and returned. Each given field is stored as given, a `null` one as None, and only an absent one takes its default |
| MockApi.AfterCreates | services/mock_api.py:14-91 | after any creates, the ids are 1..n, the list starts with the three initial gems, and `get_gem(4 + k)` returns the gem made from the `k`-th request |
| MockApi.UnknownIdNotFound | services/mock_api.py:67-72 | with ids 1..n, an id outside 1..n is not found |

## Left out

- Prompt construction, logging, CORS, the `/health` and `/metrics` gateway endpoints, application start-up and serving: these are I/O or configuration with no logic to state.
- Rate limiting (services/llm_gateway/main.py:137-138 and 240-241) is left out, and the model describes the bodies of `rank_gems` and `suggest_gems` as if they were reached. slowapi's `@limiter.limit` looks for the argument named `request` and requires a starlette `Request` there. In both handlers that argument is the pydantic request body, and the `Request` is `req`. So the decorator may refuse the call before the body runs. Whether that happens depends on slowapi, which is not part of this model.
- The Anthropic client is not modelled. Its outcome is a parameter: an API error, or the text of the first content block.
- `json.loads` and the field lookups are a `parse` parameter. It decides what a reply with a value of the wrong JSON type does. Some such values raise a `ValueError` that the endpoint catches. Those are the parameter's `ParseError` and take the 0.3 fallback: pydantic's `ValidationError` for a value of the wrong type (a `ranked_gems` that is not a list of strings, a suggestion field of the wrong type), `float()` of a non-numeric string, and, in `/rank` only, the missing-key check on a JSON array or string without `"ranked_gems"` (services/llm_gateway/main.py:199-200). The others raise outside the caught errors. Those are its `Raised` and answer 500: a JSON number or `null` as the reply, where the `in` test raises `TypeError` in `/rank` and `.get` raises `AttributeError` in `/suggest`; in `/rank`, a JSON array or string that does contain `"ranked_gems"`, which passes the `in` test and then raises `AttributeError` at `result.get` (main.py:203); in `/rank` and `/suggest`, a `confidence` that is a list or an object, where `float()` raises `TypeError`; in `/suggest`, which has no missing-key check, any JSON array or string as the reply, where `result.get("suggestions", [])` (main.py:297) raises `AttributeError`; and in `/suggest`, a `suggestions` value that is not a list of objects.
- LlmGateway.RankGems: when a wrongly typed value and a `null` confidence come together, the source raises `float(None)`'s `TypeError` first and answers 500. The `parse` parameter reports the wrongly typed value instead, so the model takes the fallback.
- LlmGateway.RankGems: the fallback reasoning for a rejected `ranked_gems` holds only the first line of pydantic's message (`1 validation error for RankResponse`); the per-field lines that follow depend on the pydantic version and are not modelled. The same holds for LlmGateway.FillSuggestion.
- LlmGateway.RankGems: a non-finite (`NaN`, infinite) confidence is not modelled, because confidences are Dafny reals.
- The JSON encoder of the keywords column escapes only `"` and `\`. It does not produce `json.dumps`'s escapes for control and non-ASCII characters, and the decoder reads only what this encoder writes.
- Embedding generation, vector normalisation and the FAISS similarity search are not modelled; a search is given the index's hits. The index is reduced to its vector count.
- The SQLite schema setup (`_init_database`) is left out, and the model describes the store as if the constructor had succeeded. The table is modelled as the schema at services/vector_store/ingest.py:64-78 declares it. The two `CREATE INDEX` statements at services/vector_store/ingest.py:81-84 are passed to one `execute()` call. Python's `sqlite3` refuses more than one statement per `execute()`, so the constructor would raise there, before any gem is added.
- Loading a saved index file, `save_index`, persistence across runs, `load_sample_gems`, `build_index` and the command-line entry point are left out, because they are storage and I/O.
- `get_stats`'s `dimension`, `model` and `store_path` fields are left out; they are configuration constants.
- VectorStore.AddGem: a `name` given explicitly as `None` is not modelled. `NULL` breaks the column's `NOT NULL` constraint, which has no default to fall back on, so the insert raises `IntegrityError` after the vector has been added to the index. The model's name is missing (stored as `""`) or given. Field values of another type than the column's (a non-string name, a list that is not of strings) are not modelled either.
- Numerals.ParseInt: `int()`'s acceptance of surrounding whitespace, `_` digit separators and non-ASCII decimal digits is not modelled. The 4300-digit limit is the default of Python 3.11 and later; changing it with `sys.set_int_max_str_digits`, and older Pythons without the limit, are not modelled.
- SimpleApi.UrlPath: `urlparse`'s scheme parsing and its removal of control characters are not modelled. A request target in absolute form (`http://host/gems`) is not modelled.
- SimpleApi.RequestPath: the reduction of a leading `//` is `http.server`'s in Python 3.11 and the releases that took the same change. Older Pythons hand `//gems` to the handler as it is.
- Registry.Create: a client field given as a JSON number, list or object is stored as it is by the source; the model's fields are strings or `null`. The same holds for MockApi.CreateGem.
- SimpleApi.HandlePost: a missing `Content-Length`, a body that is not UTF-8, and a JSON body that is not an object are not modelled (they raise outside the handled errors). The body is either valid JSON, giving the fields, or invalid (`None`).
- `do_OPTIONS`, and the `mock_api` `/health` and `/badges` payloads, are left out because they hold no logic beyond constants.
- MockApi.AfterCreates: requests are modelled as handled one at a time. `create_gem` is a synchronous endpoint, which FastAPI runs in a thread pool. It reads `len(MOCK_GEMS) + 1` (services/mock_api.py:77) before its `append` (:89), so two concurrent creates can both take the same id, and `get_gem` then finds only the first. The same holds for MockApi.CreateGem. `simple_api` serves one request at a time (`HTTPServer`, services/simple_api.py:113), so SimpleApi.ServeSequential is not affected.
- MockApi.GetGem: the not-found answer is kept as a `NotFound` value. The source returns a tuple, which FastAPI serialises as a two-element JSON array with status 200. The rejection (422) of an id that is not an integer is FastAPI's own, and is not modelled.

=== FILE: json_list.dfy ===
/**
 * The JSON text of a list of strings, as the vector store keeps a gem's
 * keywords in one column: `json.dumps(list)` to write it and `json.loads`
 * to read it back.
 */
module JsonList {
  import opened Wrappers
  import Text
  import Sorting

  /** The body of a JSON string literal: a quote or backslash is preceded by a backslash. */
  function EscapeChars(s: string): string {
    if s == [] then []
    else (if s[0] == '"' || s[0] == '\\' then ['\\', s[0]] else [s[0]]) + EscapeChars(s[1..])
  }

  /** One JSON string literal. */
  function EncodeString(s: string): string {
    ['"'] + EscapeChars(s) + ['"']
  }

  /** `json.dumps(items)` for a list of strings: `["a", "b"]`, and `[]` when empty. */
  function Encode(items: seq<string>): string {
    "[" + Text.Join(Sorting.MapSeq(items, EncodeString), ", ") + "]"
  }

  /**
   * Reads a string literal whose opening quote has been consumed: its contents
   * and the text after its closing quote, or None when it is not well formed.
   */
  function DecodeStringBody(s: string): (r: Option<(string, string)>)
    ensures r.Some? ==> |r.value.1| < |s|
    decreases |s|
  {
    if s == [] then None
    else if s[0] == '"' then Some(([], s[1..]))
    else if s[0] == '\\' then
      if |s| >= 2 && (s[1] == '"' || s[1] == '\\') then
        match DecodeStringBody(s[2..])
        case None => None
        case Some(p) => Some(([s[1]] + p.0, p.1))
      else None
    else
      match DecodeStringBody(s[1..])
      case None => None
      case Some(p) => Some(([s[0]] + p.0, p.1))
  }

  /** Reads `"a", "b"]`: one or more string literals separated by `, ` and closed by `]`. */
  function DecodeItems(s: string): Option<seq<string>>
    decreases |s|
  {
    if s == [] || s[0] != '"' then None
    else
      match DecodeStringBody(s[1..])
      case None => None
      case Some(p) =>
        if p.1 == "]" then Some([p.0])
        else if |p.1| >= 2 && p.1[..2] == ", " then
          match DecodeItems(p.1[2..])
          case None => None
          case Some(rest) => Some([p.0] + rest)
        else None
  }

  /** `json.loads` restricted to the list-of-strings texts `Encode` produces; None otherwise. */
  function Decode(s: string): Option<seq<string>> {
    if s == "[]" then Some([])
    else if |s| >= 1 && s[0] == '[' then DecodeItems(s[1..])
    else None
  }

  lemma {:induction false} StringBodyRoundTrip(k: string, rest: string)
    ensures DecodeStringBody(EscapeChars(k) + ['"'] + rest) == Some((k, rest))
  {
    if k == [] {
    } else {
      var s := EscapeChars(k) + ['"'] + rest;
      StringBodyRoundTrip(k[1..], rest);
      if k[0] == '"' || k[0] == '\\' {
        assert s == ['\\', k[0]] + (EscapeChars(k[1..]) + ['"'] + rest);
        assert s[2..] == EscapeChars(k[1..]) + ['"'] + rest;
      } else {
        assert s == [k[0]] + (EscapeChars(k[1..]) + ['"'] + rest);
        assert s[1..] == EscapeChars(k[1..]) + ['"'] + rest;
      }
      assert [k[0]] + k[1..] == k;
    }
  }

  lemma {:induction false} ItemsRoundTrip(items: seq<string>)
    requires |items| >= 1
    ensures DecodeItems(Text.Join(Sorting.MapSeq(items, EncodeString), ", ") + "]") == Some(items)
  {
    var lits := Sorting.MapSeq(items, EncodeString);
    var s := Text.Join(lits, ", ") + "]";
    if |items| == 1 {
      assert s == ['"'] + (EscapeChars(items[0]) + ['"'] + "]");
      assert s[1..] == EscapeChars(items[0]) + ['"'] + "]";
      StringBodyRoundTrip(items[0], "]");
      assert items == [items[0]];
    } else {
      var tail := Text.Join(Sorting.MapSeq(items[1..], EncodeString), ", ") + "]";
      assert lits[1..] == Sorting.MapSeq(items[1..], EncodeString);
      assert s == ['"'] + (EscapeChars(items[0]) + ['"'] + (", " + tail));
      assert s[1..] == EscapeChars(items[0]) + ['"'] + (", " + tail);
      StringBodyRoundTrip(items[0], ", " + tail);
      assert (", " + tail)[2..] == tail;
      ItemsRoundTrip(items[1..]);
      assert [items[0]] + items[1..] == items;
    }
  }

  /** Reading back what was written gives the same list, in the same order. */
  lemma RoundTrip(items: seq<string>)
    ensures Decode(Encode(items)) == Some(items)
  {
    if items == [] {
      assert Encode(items) == "[]";
    } else {
      var body := Text.Join(Sorting.MapSeq(items, EncodeString), ", ");
      ItemsRoundTrip(items);
      assert Encode(items) == "[" + (body + "]");
      assert Encode(items)[1] == '"';
    }
  }
}

=== FILE: llm_gateway.dfy ===
/**
 * The deterministic part of the LLM gateway's `/rank` and `/suggest`
 * endpoints: the API-key gate, cutting the JSON out of a fenced reply,
 * validating the parsed reply, clamping the confidence, and the fallback
 * answers used when the reply cannot be used or the API call fails.
 *
 * The model call itself is an `ApiOutcome`, and `json.loads` followed by the
 * field lookups is a `parse` function handed in by the caller.
 */
module LlmGateway {
  import opened Wrappers
  import Text
  import Sorting
  import Numerals

  /** A gem as `/rank` receives it and `/suggest` returns it. */
  datatype GemInfo = GemInfo(
    name: string,
    description: Option<string>,
    keywords: seq<string>,
    downloadCount: Option<int>,
    stars: Option<int>,
    lastUpdated: Option<string>)

  /** What the call to the model produced: an API error, or the text of the first content block. */
  datatype ApiOutcome = ApiError | Reply(text: string)

  /**
   * `json.loads` plus the reply's field lookups: an error the endpoint's
   * parse-error handler catches (`JSONDecodeError`, `ValueError`, `KeyError`,
   * pydantic's `ValidationError` for a wrongly typed value) with its message,
   * any other exception on the way (a reply that is no JSON object, say) with
   * its message, or the keys of the reply object.
   */
  datatype ParseOutcome<T> = ParseError(message: string) | Raised(message: string) | Parsed(value: T)

  /** An endpoint's answer: a response body, or an HTTP error status with its detail. */
  datatype HttpResult<T> = Ok(body: T) | HttpError(status: int, detail: string)

  const JsonFence := "```json"
  const Fence := "```"
  const NoKeyDetail := "Anthropic API key not configured"
  const NoReasoning := "No reasoning provided"

  /** The key is configured when the variable is set to a non-empty string (Python truthiness). */
  predicate KeyConfigured(apiKey: Option<string>) {
    apiKey.Some? && apiKey.value != ""
  }

  /** The first occurrence of a fence pattern is unique. */
  lemma FirstOccurrenceUnique(s: string, pat: string, from: int, p: int, q: int)
    requires Text.FirstFrom(s, pat, from, p) && Text.FirstFrom(s, pat, from, q)
    ensures p == q
  {
  }

  /**
   * The text handed to the JSON parser: with a "```json" fence anywhere, the
   * stripped body after the first one; else with a bare "```" fence, the
   * stripped body after the first one; else the reply unchanged. The body ends
   * at the next "```"; with none, `find` gives -1, which as a slice bound drops
   * the final character.
   */
  function ExtractJsonText(text: string): (r: string)
    ensures !Text.Contains(text, Fence) ==> r == text
  {
    Text.ContainsIffFound(text, JsonFence);
    Text.ContainsIffFound(text, Fence);
    if Text.Contains(text, JsonFence) then
      Text.ContainsPrefix(text, JsonFence, Fence);
      FencedBody(text, Text.Find(text, JsonFence, 0) + 7)
    else if Text.Contains(text, Fence) then
      FencedBody(text, Text.Find(text, Fence, 0) + 3)
    else
      text
  }

  /** The stripped text from `start` up to the next "```" (`end` is -1 when there is none). */
  function FencedBody(text: string, start: nat): string {
    Text.Strip(Text.Slice(text, start, Text.Find(text, Fence, start)))
  }

  /** A "```json" fence wins, even after a bare one; the body runs to the next "```". */
  lemma ExtractJsonFenced(text: string, p: int, q: int)
    requires Text.FirstFrom(text, JsonFence, 0, p)
    requires Text.FirstFrom(text, Fence, p + 7, q)
    ensures ExtractJsonText(text) == Text.Strip(text[p + 7..q])
  {
    JsonFenceOpens(text, p);
    ClosedBody(text, p + 7, q);
  }

  /** An unclosed "```json" fence: the body runs to the end less its final character. */
  lemma ExtractJsonFencedUnclosed(text: string, p: int)
    requires Text.FirstFrom(text, JsonFence, 0, p)
    requires Text.AbsentFrom(text, Fence, p + 7)
    ensures ExtractJsonText(text) == Text.Strip(text[p + 7..Text.Max(p + 7, |text| - 1)])
  {
    JsonFenceOpens(text, p);
    Text.SliceToMinusOne(text, p + 7);
  }

  /** Without "```json", the first bare "```" opens the body, which runs to the next "```". */
  lemma ExtractBareFenced(text: string, p: int, q: int)
    requires !Text.Contains(text, JsonFence)
    requires Text.FirstFrom(text, Fence, 0, p)
    requires Text.FirstFrom(text, Fence, p + 3, q)
    ensures ExtractJsonText(text) == Text.Strip(text[p + 3..q])
  {
    BareFenceOpens(text, p);
    ClosedBody(text, p + 3, q);
  }

  /** An unclosed bare fence: the body runs to the end less its final character. */
  lemma ExtractBareFencedUnclosed(text: string, p: int)
    requires !Text.Contains(text, JsonFence)
    requires Text.FirstFrom(text, Fence, 0, p)
    requires Text.AbsentFrom(text, Fence, p + 3)
    ensures ExtractJsonText(text) == Text.Strip(text[p + 3..Text.Max(p + 3, |text| - 1)])
  {
    BareFenceOpens(text, p);
    Text.SliceToMinusOne(text, p + 3);
  }

  /** The first "```json" at `p` opens the body at `p + 7`. */
  lemma JsonFenceOpens(text: string, p: int)
    requires Text.FirstFrom(text, JsonFence, 0, p)
    ensures 7 <= p + 7 <= |text|
    ensures ExtractJsonText(text) == FencedBody(text, p + 7)
  {
    assert Text.Contains(text, JsonFence) by {
      assert Text.OccursAt(text, JsonFence, p);
    }
    Text.ContainsIffFound(text, JsonFence);
    var f := Text.Find(text, JsonFence, 0);
    FirstOccurrenceUnique(text, JsonFence, 0, p, f);
    assert ExtractJsonText(text) == FencedBody(text, f + 7);
  }

  /** Without "```json", the first "```" at `p` opens the body at `p + 3`. */
  lemma BareFenceOpens(text: string, p: int)
    requires !Text.Contains(text, JsonFence)
    requires Text.FirstFrom(text, Fence, 0, p)
    ensures 3 <= p + 3 <= |text|
    ensures ExtractJsonText(text) == FencedBody(text, p + 3)
  {
    assert Text.Contains(text, Fence) by {
      assert Text.OccursAt(text, Fence, p);
    }
    Text.ContainsIffFound(text, Fence);
    var f := Text.Find(text, Fence, 0);
    FirstOccurrenceUnique(text, Fence, 0, p, f);
    assert ExtractJsonText(text) == FencedBody(text, f + 3);
  }

  /** A body closed by the first "```" at `q` is the stripped text up to `q`. */
  lemma ClosedBody(text: string, start: nat, q: int)
    requires Text.FirstFrom(text, Fence, start, q)
    ensures FencedBody(text, start) == Text.Strip(text[start..q])
  {
    assert Text.OccursAt(text, Fence, q);
    FirstOccurrenceUnique(text, Fence, start, q, Text.Find(text, Fence, start));
    Text.SliceInRange(text, start, q);
  }

  /**
   * `min(1.0, max(0.0, float(confidence)))`, with 0.8 when the key is absent;
   * a `null` confidence never gets here, since `float(None)` raises.
   */
  function ClampConfidence(confidence: Field<real>): (r: real)
    requires !confidence.Null?
    ensures 0.0 <= r <= 1.0
    ensures confidence.Absent? ==> r == 0.8
    ensures confidence.Given? && 0.0 <= confidence.value <= 1.0 ==> r == confidence.value
    ensures confidence.Given? && confidence.value < 0.0 ==> r == 0.0
    ensures confidence.Given? && confidence.value > 1.0 ==> r == 1.0
  {
    var c := confidence.Get(0.8).value;
    if c > 1.0 then 1.0 else if c < 0.0 then 0.0 else c
  }

  function NameOf(g: GemInfo): string {
    g.name
  }

  function Names(gems: seq<GemInfo>): seq<string> {
    Sorting.MapSeq(gems, NameOf)
  }

  /**
   * The alphabetical fallback. Sorting the gems by name and keeping the names
   * gives the same list as sorting the names, since equal keys are equal names.
   */
  function AlphabeticalRanking(gems: seq<GemInfo>): (r: seq<string>)
    ensures multiset(r) == multiset(Names(gems))
    ensures forall i, j :: 0 <= i < j < |r| ==> Sorting.LexLe(r[i], r[j])
  {
    Sorting.LexIsTotalPreorder();
    Sorting.InsertionSort(Names(gems), Sorting.LexLe)
  }

  /** The alphabetical fallback is the only ascending arrangement of the input names. */
  lemma AlphabeticalRankingUnique(gems: seq<GemInfo>, names: seq<string>)
    requires multiset(names) == multiset(Names(gems))
    requires forall i, j :: 0 <= i < j < |names| ==> Sorting.LexLe(names[i], names[j])
    ensures names == AlphabeticalRanking(gems)
  {
    var r := AlphabeticalRanking(gems);
    Sorting.LexAntisymmetricOn(names);
    assert Sorting.SortedBy(names, Sorting.LexLe);
    assert Sorting.SortedBy(r, Sorting.LexLe);
    Sorting.SortedPermutationUnique(names, r, Sorting.LexLe);
  }

  /** The popularity fallback's key: `(download_count or 0) + (stars or 0) * 1000`. */
  function Popularity(g: GemInfo): int {
    g.downloadCount.GetOr(0) + g.stars.GetOr(0) * 1000
  }

  /** Each gem paired with its position in the request. */
  function Indexed(gems: seq<GemInfo>): (r: seq<(nat, GemInfo)>)
    ensures |r| == |gems|
    ensures forall i :: 0 <= i < |gems| ==> r[i] == (i, gems[i])
  {
    seq(|gems|, i requires 0 <= i < |gems| => (i as nat, gems[i]))
  }

  /**
   * Python's stable `sorted(..., reverse=True)` by popularity: more popular
   * first, and among equally popular gems the earlier request position first.
   */
  predicate PopularityLe(a: (nat, GemInfo), b: (nat, GemInfo)) {
    Popularity(a.1) > Popularity(b.1) || (Popularity(a.1) == Popularity(b.1) && a.0 <= b.0)
  }

  lemma PopularityLeIsTotalPreorder()
    ensures Sorting.TotalPreorder(PopularityLe)
  {
  }

  /** The popularity fallback's arrangement of the request, before the names are taken. */
  function PopularityOrder(gems: seq<GemInfo>): (r: seq<(nat, GemInfo)>)
    ensures |r| == |gems|
    ensures multiset(r) == multiset(Indexed(gems))
    ensures forall i, j :: 0 <= i < j < |r| ==>
              || Popularity(r[i].1) > Popularity(r[j].1)
              || (Popularity(r[i].1) == Popularity(r[j].1) && r[i].0 < r[j].0)
  {
    PopularityLeIsTotalPreorder();
    var r := Sorting.InsertionSort(Indexed(gems), PopularityLe);
    assert |r| == |multiset(r)| == |Indexed(gems)|;
    assert Sorting.Distinct(Indexed(gems));
    Sorting.DistinctPermutation(Indexed(gems), r);
    forall i, j | 0 <= i < j < |r|
      ensures Popularity(r[i].1) > Popularity(r[j].1) || (Popularity(r[i].1) == Popularity(r[j].1) && r[i].0 < r[j].0)
    {
      assert PopularityLe(r[i], r[j]);
      IndexedMember(gems, r[i]);
      IndexedMember(gems, r[j]);
    }
    r
  }

  /** An element of `Indexed(gems)` is a position of `gems` paired with the gem there. */
  lemma IndexedMember(gems: seq<GemInfo>, x: (nat, GemInfo))
    requires x in multiset(Indexed(gems))
    ensures x.0 < |gems| && x == (x.0, gems[x.0])
  {
    var m :| 0 <= m < |Indexed(gems)| && Indexed(gems)[m] == x;
  }

  /** Any arrangement of the request sorted the same way is exactly the fallback's. */
  lemma PopularityOrderUnique(gems: seq<GemInfo>, order: seq<(nat, GemInfo)>)
    requires multiset(order) == multiset(Indexed(gems))
    requires forall i, j :: 0 <= i < j < |order| ==> PopularityLe(order[i], order[j])
    ensures order == PopularityOrder(gems)
  {
    var r := PopularityOrder(gems);
    assert Sorting.AntisymmetricOn(order, PopularityLe) by {
      forall i, j | 0 <= i < |order| && 0 <= j < |order| && PopularityLe(order[i], order[j]) && PopularityLe(order[j], order[i])
        ensures order[i] == order[j]
      {
        assert order[i] in multiset(order) && order[j] in multiset(order);
        IndexedMember(gems, order[i]);
        IndexedMember(gems, order[j]);
      }
    }
    assert Sorting.SortedBy(r, PopularityLe);
    Sorting.SortedPermutationUnique(order, r, PopularityLe);
  }

  /** The popularity fallback: the names of `PopularityOrder`, a permutation of the request's names. */
  function PopularityRanking(gems: seq<GemInfo>): (r: seq<string>)
    ensures multiset(r) == multiset(Names(gems))
    ensures |r| == |gems|
    ensures forall i :: 0 <= i < |r| ==> r[i] == PopularityOrder(gems)[i].1.name
  {
    var order := PopularityOrder(gems);
    var second := (p: (nat, GemInfo)) => p.1;
    Sorting.MapPreservesPermutation(order, Indexed(gems), second);
    assert Sorting.MapSeq(Indexed(gems), second) == gems;
    Sorting.MapPreservesPermutation(Sorting.MapSeq(order, second), gems, NameOf);
    assert |order| == |multiset(order)| == |Indexed(gems)|;
    Names(Sorting.MapSeq(order, second))
  }

  /** The keys of a `/rank` reply object. */
  datatype RankReply = RankReply(rankedGems: Field<seq<string>>, reasoning: Field<string>, confidence: Field<real>)

  /** The `/rank` answer; `reasoning` is None where the reply gave `null`. */
  datatype RankResponse = RankResponse(rankedGems: seq<string>, reasoning: Option<string>, confidence: real)

  const RankFallbackPrefix := "Fallback ranking due to parsing error: "
  const MissingRankedGems := "Missing 'ranked_gems' in response"

  /** The first line of pydantic's message for a model that rejected `errors` values. */
  function ValidationHead(errors: nat, model: string): string {
    Numerals.ToDecimal(errors) + (if errors == 1 then " validation error for " else " validation errors for ") + model
  }

  /** The 500 answer of the generic `except Exception` handler. */
  function InternalError<T>(message: string): (r: HttpResult<T>)
    ensures r.HttpError? && r.status == 500
  {
    HttpError(500, "Internal server error: " + message)
  }

  /** What `float(None)` raises, for a confidence given as `null`. */
  const FloatOfNone := "float() argument must be a string or a real number, not 'NoneType'"

  /** The alphabetical fallback answer: sorted names, the given reasoning, confidence 0.3. */
  ghost predicate AlphabeticalFallback(r: HttpResult<RankResponse>, gems: seq<GemInfo>, reasoning: string) {
    && r.Ok?
    && r.body.confidence == 0.3
    && r.body.reasoning == Some(reasoning)
    && multiset(r.body.rankedGems) == multiset(Names(gems))
    && forall i, j :: 0 <= i < j < |r.body.rankedGems| ==> Sorting.LexLe(r.body.rankedGems[i], r.body.rankedGems[j])
  }

  /**
   * The `/rank` endpoint. The order of the checks is the source's: a missing
   * `ranked_gems` raises first; `float(None)` for a `null` confidence raises
   * next, outside the parse-error handler; constructing the response then
   * rejects a `null` `ranked_gems`.
   */
  function RankGems(apiKey: Option<string>, gems: seq<GemInfo>, call: ApiOutcome,
                    parse: string -> ParseOutcome<RankReply>): (r: HttpResult<RankResponse>)
    ensures r.HttpError? && r.status == 503 <==> !KeyConfigured(apiKey)
    ensures !KeyConfigured(apiKey) ==> r == HttpError(503, NoKeyDetail)
    ensures r.HttpError? ==> r.status == 503 || r.status == 500
    ensures r.Ok? ==> 0.0 <= r.body.confidence <= 1.0
    ensures KeyConfigured(apiKey) && call.ApiError? ==>
              r == Ok(RankResponse(PopularityRanking(gems), Some("Fallback ranking by popularity due to API error"), 0.5))
    ensures KeyConfigured(apiKey) && call.Reply? ==>
              match parse(ExtractJsonText(call.text))
              case ParseError(message) => AlphabeticalFallback(r, gems, RankFallbackPrefix + message)
              case Raised(message) => r == InternalError(message)
              case Parsed(reply) =>
                && (reply.rankedGems.Absent? ==> AlphabeticalFallback(r, gems, RankFallbackPrefix + MissingRankedGems))
                && (!reply.rankedGems.Absent? && reply.confidence.Null? ==> r == InternalError(FloatOfNone))
                && (reply.rankedGems.Null? && !reply.confidence.Null? ==>
                      AlphabeticalFallback(r, gems, RankFallbackPrefix + ValidationHead(1, "RankResponse")))
                && (reply.rankedGems.Given? && !reply.confidence.Null? ==>
                      && r.Ok?
                      && r.body.rankedGems == reply.rankedGems.value
                      && r.body.reasoning == reply.reasoning.Get(NoReasoning)
                      && r.body.confidence == ClampConfidence(reply.confidence))
  {
    if !KeyConfigured(apiKey) then HttpError(503, NoKeyDetail)
    else
      match call
      case ApiError =>
        Ok(RankResponse(PopularityRanking(gems), Some("Fallback ranking by popularity due to API error"), 0.5))
      case Reply(text) =>
        match parse(ExtractJsonText(text))
        case ParseError(message) =>
          Ok(RankResponse(AlphabeticalRanking(gems), Some(RankFallbackPrefix + message), 0.3))
        case Raised(message) => InternalError(message)
        case Parsed(reply) =>
          if reply.rankedGems.Absent? then
            Ok(RankResponse(AlphabeticalRanking(gems), Some(RankFallbackPrefix + MissingRankedGems), 0.3))
          else if reply.confidence.Null? then InternalError(FloatOfNone)
          else if reply.rankedGems.Null? then
            Ok(RankResponse(AlphabeticalRanking(gems), Some(RankFallbackPrefix + ValidationHead(1, "RankResponse")), 0.3))
          else
            Ok(RankResponse(reply.rankedGems.value, reply.reasoning.Get(NoReasoning), ClampConfidence(reply.confidence)))
  }

  /** One element of a `/suggest` reply's "suggestions" list: the keys of a JSON object. */
  datatype SuggestionReply = SuggestionReply(
    name: Field<string>,
    description: Field<string>,
    keywords: Field<seq<string>>,
    downloadCount: Field<int>,
    stars: Field<int>)

  /** The keys of a `/suggest` reply object. */
  datatype SuggestReply = SuggestReply(suggestions: Field<seq<SuggestionReply>>, reasoning: Field<string>, confidence: Field<real>)

  /** The `/suggest` answer; `reasoning` is None where the reply gave `null`. */
  datatype SuggestResponse = SuggestResponse(suggestions: seq<GemInfo>, reasoning: Option<string>, confidence: real)

  /** A pydantic model built, or the message of the `ValidationError` it raised. */
  datatype Validated<T> = Invalid(message: string) | Valid(value: T)

  /**
   * `g` carries what `.get` with the source's defaults reads from `s`:
   * `null` stays None for the optional fields, and the defaults apply only to
   * absent keys.
   */
  ghost predicate FilledFrom(g: GemInfo, s: SuggestionReply) {
    && Some(g.name) == s.name.Get("unknown")
    && g.description == s.description.Get("")
    && Some(g.keywords) == s.keywords.Get([])
    && g.downloadCount == s.downloadCount.Get(0)
    && g.stars == s.stars.Get(0)
    && g.lastUpdated.None?
  }

  /** How many values `GemInfo` rejects: a `null` name or keyword list, the two non-optional fields. */
  function NullRequired(s: SuggestionReply): nat {
    (if s.name.Null? then 1 else 0) + (if s.keywords.Null? then 1 else 0)
  }

  /** One suggestion built into a `GemInfo`, defaulting its absent keys. */
  function FillSuggestion(s: SuggestionReply): (r: Validated<GemInfo>)
    ensures r.Invalid? <==> s.name.Null? || s.keywords.Null?
    ensures r.Invalid? ==> r.message == ValidationHead(NullRequired(s), "GemInfo")
    ensures r.Valid? ==> FilledFrom(r.value, s)
  {
    if NullRequired(s) > 0 then Invalid(ValidationHead(NullRequired(s), "GemInfo"))
    else
      Valid(GemInfo(s.name.Get("unknown").value, s.description.Get(""), s.keywords.Get([]).value,
                    s.downloadCount.Get(0), s.stars.Get(0), None))
  }

  /**
   * The loop over the reply's suggestions: all of them built in reply order,
   * or the error of the first one that cannot be built.
   */
  function FillSuggestions(replies: seq<SuggestionReply>): (r: Validated<seq<GemInfo>>)
    ensures r.Valid? <==> forall i :: 0 <= i < |replies| ==> FillSuggestion(replies[i]).Valid?
    ensures r.Valid? ==> |r.value| == |replies| && forall i :: 0 <= i < |replies| ==> FillSuggestion(replies[i]) == Valid(r.value[i])
    ensures r.Invalid? ==> exists i :: 0 <= i < |replies| && FillSuggestion(replies[i]) == Invalid(r.message)
                                         && forall j :: 0 <= j < i ==> FillSuggestion(replies[j]).Valid?
  {
    if replies == [] then Valid([])
    else
      match FillSuggestion(replies[0])
      case Invalid(message) => Invalid(message)
      case Valid(g) =>
        var rest := FillSuggestions(replies[1..]);
        FillSuggestionsCons(replies, g, rest);
        match rest
        case Invalid(message) => Invalid(message)
        case Valid(gs) => Valid([g] + gs)
  }

  /** The contract of `FillSuggestions` for a first suggestion `g` that builds, given that of the rest. */
  lemma FillSuggestionsCons(replies: seq<SuggestionReply>, g: GemInfo, rest: Validated<seq<GemInfo>>)
    requires replies != [] && FillSuggestion(replies[0]) == Valid(g)
    requires rest.Valid? <==> forall i :: 0 <= i < |replies[1..]| ==> FillSuggestion(replies[1..][i]).Valid?
    requires rest.Valid? ==> |rest.value| == |replies[1..]|
                              && forall i :: 0 <= i < |replies[1..]| ==> FillSuggestion(replies[1..][i]) == Valid(rest.value[i])
    requires rest.Invalid? ==> exists i :: 0 <= i < |replies[1..]| && FillSuggestion(replies[1..][i]) == Invalid(rest.message)
                                             && forall j :: 0 <= j < i ==> FillSuggestion(replies[1..][j]).Valid?
    ensures rest.Valid? <==> forall i :: 0 <= i < |replies| ==> FillSuggestion(replies[i]).Valid?
    ensures rest.Valid? ==> forall i :: 0 <= i < |replies| ==> FillSuggestion(replies[i]) == Valid(([g] + rest.value)[i])
    ensures rest.Invalid? ==> exists i :: 0 <= i < |replies| && FillSuggestion(replies[i]) == Invalid(rest.message)
                                           && forall j :: 0 <= j < i ==> FillSuggestion(replies[j]).Valid?
  {
    assert forall i :: 1 <= i < |replies| ==> replies[i] == replies[1..][i - 1];
    if rest.Invalid? {
      var i :| 0 <= i < |replies[1..]| && FillSuggestion(replies[1..][i]) == Invalid(rest.message)
               && forall j :: 0 <= j < i ==> FillSuggestion(replies[1..][j]).Valid?;
      assert FillSuggestion(replies[i + 1]) == Invalid(rest.message);
    }
  }

  /** The reply object a `GemInfo` is written as: every key present, None as `null`. */
  function AsSuggestion(g: GemInfo): SuggestionReply {
    SuggestionReply(Given(g.name), FieldOf(g.description), Given(g.keywords), FieldOf(g.downloadCount), FieldOf(g.stars))
  }

  /**
   * Suggestions written out with every key present come back as they were:
   * nothing is defaulted, and a `null` description or count stays None.
   */
  lemma {:induction false} SuggestionRoundTrip(gems: seq<GemInfo>)
    requires forall i :: 0 <= i < |gems| ==> gems[i].lastUpdated.None?
    ensures FillSuggestions(Sorting.MapSeq(gems, AsSuggestion)) == Valid(gems)
  {
    var replies := Sorting.MapSeq(gems, AsSuggestion);
    forall i | 0 <= i < |gems|
      ensures FillSuggestion(replies[i]) == Valid(gems[i])
    {
      var g := gems[i];
      assert replies[i] == AsSuggestion(g);
      var r := FillSuggestion(AsSuggestion(g));
      assert r.Valid? && FilledFrom(r.value, AsSuggestion(g));
      assert r.value == g;
    }
    var r := FillSuggestions(replies);
    assert r.Valid?;
    assert r.value == gems;
  }

  /** The suggestions returned when the reply cannot be parsed. */
  const ParseFallbackSuggestions: seq<GemInfo> := [
    GemInfo("rails", Some("Full-stack web application framework"), ["web", "framework", "mvc"], Some(500000000), Some(55000), None),
    GemInfo("sinatra", Some("Lightweight web application DSL"), ["web", "lightweight", "dsl"], Some(100000000), Some(12000), None)
  ]

  /** The suggestions returned when the API call fails. */
  const ApiFallbackSuggestions: seq<GemInfo> := [
    GemInfo("bundler", Some("Dependency manager for Ruby projects"), ["dependency", "management", "gems"], Some(1000000000), Some(4900), None)
  ]

  const SuggestFallbackPrefix := "Fallback suggestions due to parsing error: "

  /** What iterating over `None` raises, for a `suggestions` key given as `null`. */
  const IterateNone := "'NoneType' object is not iterable"

  /** The suggestions a reply lists: none when the key is absent. */
  function SuggestionItems(f: Field<seq<SuggestionReply>>): (items: seq<SuggestionReply>)
    requires !f.Null?
    ensures f.Absent? ==> items == []
    ensures f.Given? ==> items == f.value
  {
    f.Get([]).value
  }

  /**
   * The `/suggest` endpoint. A `null` suggestion list raises while iterating,
   * outside the parse-error handler; a suggestion `GemInfo` rejects falls back
   * like a parse error; then `float(None)` for a `null` confidence raises.
   */
  function SuggestGems(apiKey: Option<string>, call: ApiOutcome,
                       parse: string -> ParseOutcome<SuggestReply>): (r: HttpResult<SuggestResponse>)
    ensures r.HttpError? && r.status == 503 <==> !KeyConfigured(apiKey)
    ensures !KeyConfigured(apiKey) ==> r == HttpError(503, NoKeyDetail)
    ensures r.HttpError? ==> r.status == 503 || r.status == 500
    ensures r.Ok? ==> 0.0 <= r.body.confidence <= 1.0
    ensures KeyConfigured(apiKey) && call.ApiError? ==>
              r == Ok(SuggestResponse(ApiFallbackSuggestions, Some("Fallback suggestions due to API error"), 0.4))
    ensures KeyConfigured(apiKey) && call.Reply? ==>
              match parse(ExtractJsonText(call.text))
              case ParseError(message) =>
                r == Ok(SuggestResponse(ParseFallbackSuggestions, Some(SuggestFallbackPrefix + message), 0.3))
              case Raised(message) => r == InternalError(message)
              case Parsed(reply) =>
                && (reply.suggestions.Null? ==> r == InternalError(IterateNone))
                && (!reply.suggestions.Null? ==>
                      match FillSuggestions(SuggestionItems(reply.suggestions))
                      case Invalid(message) =>
                        r == Ok(SuggestResponse(ParseFallbackSuggestions, Some(SuggestFallbackPrefix + message), 0.3))
                      case Valid(suggestions) =>
                        && (reply.confidence.Null? ==> r == InternalError(FloatOfNone))
                        && (!reply.confidence.Null? ==>
                              && r.Ok?
                              && r.body.suggestions == suggestions
                              && r.body.reasoning == reply.reasoning.Get(NoReasoning)
                              && r.body.confidence == ClampConfidence(reply.confidence)))
  {
    if !KeyConfigured(apiKey) then HttpError(503, NoKeyDetail)
    else
      match call
      case ApiError =>
        Ok(SuggestResponse(ApiFallbackSuggestions, Some("Fallback suggestions due to API error"), 0.4))
      case Reply(text) =>
        match parse(ExtractJsonText(text))
        case ParseError(message) =>
          Ok(SuggestResponse(ParseFallbackSuggestions, Some(SuggestFallbackPrefix + message), 0.3))
        case Raised(message) => InternalError(message)
        case Parsed(reply) =>
          if reply.suggestions.Null? then InternalError(IterateNone)
          else
            match FillSuggestions(SuggestionItems(reply.suggestions))
            case Invalid(message) =>
              Ok(SuggestResponse(ParseFallbackSuggestions, Some(SuggestFallbackPrefix + message), 0.3))
            case Valid(suggestions) =>
              if reply.confidence.Null? then InternalError(FloatOfNone)
              else Ok(SuggestResponse(suggestions, reply.reasoning.Get(NoReasoning), ClampConfidence(reply.confidence)))
  }
}

=== FILE: mock_api.dfy ===
/**
 * The FastAPI mock API: listing, fetching and creating gems over one
 * process-wide gem list that starts with three gems.
 */
module MockApi {
  import opened Wrappers
  import Registry

  /** The three gems the service starts with. */
  const InitialGems: seq<Registry.Gem> := [
    Registry.StartingGem(1, "rails", "7.0.4", "Full-stack web application framework", "https://rubyonrails.org",
                         "MIT", 500000000, 4.8, "2023-01-01T00:00:00Z", "2023-12-01T00:00:00Z", 15000, 3),
    Registry.StartingGem(2, "sinatra", "3.0.0", "Lightweight web application DSL", "https://sinatrarb.com",
                         "MIT", 100000000, 4.5, "2023-01-01T00:00:00Z", "2023-11-01T00:00:00Z", 8000, 2),
    Registry.StartingGem(3, "devise", "4.9.0", "Flexible authentication solution for Rails",
                         "https://github.com/plataformatec/devise",
                         "MIT", 200000000, 4.6, "2023-01-01T00:00:00Z", "2023-10-01T00:00:00Z", 12000, 4)
  ]

  /** What an endpoint returns: the list, one gem, or the not-found error value. */
  datatype Reply = GemsReply(gems: seq<Registry.Gem>) | GemReply(gem: Registry.Gem) | NotFound

  /** `get_gems`: the whole list, in insertion order. */
  function GetGems(gems: seq<Registry.Gem>): (r: Reply)
    ensures r.GemsReply? && |r.gems| == |gems|
    ensures forall k :: 0 <= k < |gems| ==> r.gems[k] == gems[k]
  {
    GemsReply(gems)
  }

  /** `get_gem`: the first gem with the id, or the not-found value when there is none. */
  function GetGem(gems: seq<Registry.Gem>, id: int): (r: Reply)
    ensures r.NotFound? <==> forall k :: 0 <= k < |gems| ==> gems[k].id != id
    ensures r.GemReply? ==> exists k :: 0 <= k < |gems| && gems[k] == r.gem && r.gem.id == id
                                        && forall j :: 0 <= j < k ==> gems[j].id != id
    ensures !r.GemsReply?
  {
    match Registry.FindById(gems, id)
    case None => NotFound
    case Some(g) => GemReply(g)
  }

  /** `create_gem`: appends the new gem with id `len + 1` and returns it. */
  function CreateGem(gems: seq<Registry.Gem>, input: Registry.GemInput): (r: (seq<Registry.Gem>, Reply))
    ensures r.1.GemReply? && r.0 == gems + [r.1.gem]
    ensures Registry.MadeFrom(r.1.gem, |gems| + 1, input)
  {
    var (after, g) := Registry.Create(gems, input);
    assert after == gems + [g];
    (after, GemReply(g))
  }

  /**
   * After any sequence of creates from the start: the ids are exactly 1..n,
   * `get_gems` lists the three initial gems followed by the created ones in
   * request order, and each created gem is what `get_gem` returns for its id.
   */
  lemma AfterCreates(inputs: seq<Registry.GemInput>)
    ensures var gems := Registry.CreateAll(InitialGems, inputs);
            && Registry.IdsSequential(gems)
            && |GetGems(gems).gems| == 3 + |inputs|
            && GetGems(gems).gems[..3] == InitialGems
            && forall k :: 0 <= k < |inputs| ==>
                 GetGem(gems, 4 + k) == GemReply(Registry.NewGem(4 + k, inputs[k]))
  {
    var gems := Registry.CreateAll(InitialGems, inputs);
    Registry.CreateAllSequential(InitialGems, inputs);
    forall k | 0 <= k < |inputs|
      ensures GetGem(gems, 4 + k) == GemReply(Registry.NewGem(4 + k, inputs[k]))
    {
      Registry.FindSequential(gems, 4 + k);
    }
  }

  /** With ids 1..n, an id outside 1..n is not found. */
  lemma UnknownIdNotFound(gems: seq<Registry.Gem>, id: int)
    requires Registry.IdsSequential(gems)
    requires id < 1 || id > |gems|
    ensures GetGem(gems, id) == NotFound
  {
    Registry.FindSequential(gems, id);
  }
}

=== FILE: numerals.dfy ===
/**
 * Decimal numerals: Python's `int(s)` on the strings a gem id can take in a
 * URL, and the decimal rendering of a natural number that `str(n)` gives.
 * `int` here accepts an optional sign followed by ASCII digits.
 */
module Numerals {
  import opened Wrappers

  predicate IsDigit(c: char) {
    '0' <= c <= '9'
  }

  function DigitValue(c: char): nat
    requires IsDigit(c)
  {
    (c as int) - ('0' as int)
  }

  function DigitChar(d: nat): (c: char)
    requires d < 10
    ensures IsDigit(c) && DigitValue(c) == d
  {
    (('0' as int) + d) as char
  }

  predicate AllDigits(s: string) {
    forall k :: 0 <= k < |s| ==> IsDigit(s[k])
  }

  function Pow10(n: nat): nat {
    if n == 0 then 1 else 10 * Pow10(n - 1)
  }

  /** The positional value of a digit string, read from its most significant digit. */
  function DigitsValue(s: string): nat
    requires AllDigits(s)
  {
    if s == [] then 0 else DigitValue(s[0]) * Pow10(|s| - 1) + DigitsValue(s[1..])
  }

  /** Appending a digit multiplies the value by ten and adds the digit. */
  lemma {:induction false} DigitsValueSnoc(s: string, c: char)
    requires AllDigits(s) && IsDigit(c)
    ensures AllDigits(s + [c])
    ensures DigitsValue(s + [c]) == DigitsValue(s) * 10 + DigitValue(c)
  {
    var t := s + [c];
    assert AllDigits(t);
    if s != [] {
      assert t[1..] == s[1..] + [c];
      DigitsValueSnoc(s[1..], c);
      var lead, p, rest := DigitValue(s[0]), Pow10(|s| - 1), DigitsValue(s[1..]);
      assert DigitsValue(t) == lead * (10 * p) + (rest * 10 + DigitValue(c));
      ShiftDigit(lead, p, rest, DigitValue(c));
    } else {
      assert t[1..] == [];
    }
  }

  lemma ShiftDigit(lead: int, p: int, rest: int, d: int)
    ensures lead * (10 * p) + (rest * 10 + d) == (lead * p + rest) * 10 + d
  {
  }

  /**
   * The value of a run of ASCII digits, leading zeros included; None when `s`
   * is empty or holds anything else.
   */
  function ParseNat(s: string): (r: Option<nat>)
    ensures r.Some? <==> s != [] && AllDigits(s)
    ensures r.Some? ==> r.value == DigitsValue(s)
    decreases |s|
  {
    if s == [] || !IsDigit(s[|s| - 1]) then None
    else if |s| == 1 then
      assert s[1..] == [];
      Some(DigitValue(s[0]))
    else
      match ParseNat(s[..|s| - 1])
      case None => None
      case Some(n) =>
        DigitsValueSnoc(s[..|s| - 1], s[|s| - 1]);
        assert s[..|s| - 1] + [s[|s| - 1]] == s;
        Some(n * 10 + DigitValue(s[|s| - 1]))
  }

  /** A leading zero does not change the value: `int("01") == int("1")`. */
  lemma LeadingZero(s: string)
    requires s != []
    ensures ParseNat("0" + s) == ParseNat(s)
  {
    var t := "0" + s;
    assert t[1..] == s;
    assert AllDigits(t) <==> AllDigits(s) by {
      assert forall k :: 0 <= k < |s| ==> t[k + 1] == s[k];
    }
  }

  /** `s` starts with a sign character. */
  predicate Signed(s: string) {
    s != [] && (s[0] == '-' || s[0] == '+')
  }

  /**
   * Python's limit on the digits `int()` converts from a decimal string
   * (`sys.get_int_max_str_digits()`, 4300 by default since Python 3.11).
   */
  const MaxStrDigits: nat := 4300

  /**
   * `int(s)` for an optional `+` or `-` followed by ASCII digits; None where
   * Python raises `ValueError`, which includes more than `MaxStrDigits` digits.
   */
  function ParseInt(s: string): (r: Option<int>)
    ensures var digits := if Signed(s) then s[1..] else s;
            r.Some? <==> ParseNat(digits).Some? && |digits| <= MaxStrDigits
    ensures r.Some? && Signed(s) && s[0] == '-' ==> r.value == -(DigitsValue(s[1..]) as int)
    ensures r.Some? && !(Signed(s) && s[0] == '-') ==> r.value == DigitsValue(if Signed(s) then s[1..] else s)
  {
    var digits := if Signed(s) then s[1..] else s;
    if |digits| > MaxStrDigits then None
    else
      match ParseNat(digits)
      case None => None
      case Some(n) =>
        var v: int := if Signed(s) && s[0] == '-' then -(n as int) else n;
        Some(v)
  }

  /** `str(n)`: the digits of `n` without leading zeros, "0" for zero. */
  function ToDecimal(n: nat): (s: string)
    ensures s != [] && AllDigits(s)
    ensures |s| > 1 ==> s[0] != '0'
  {
    if n < 10 then [DigitChar(n)] else ToDecimal(n / 10) + [DigitChar(n % 10)]
  }

  /** Reading back a rendered number gives the number. */
  lemma {:induction false} ParseToDecimal(n: nat)
    ensures ParseNat(ToDecimal(n)) == Some(n)
    ensures ParseInt(ToDecimal(n)) == if |ToDecimal(n)| <= MaxStrDigits then Some(n) else None
  {
    var s := ToDecimal(n);
    if n >= 10 {
      ParseToDecimal(n / 10);
      assert s[..|s| - 1] == ToDecimal(n / 10);
    }
  }
}

=== FILE: registry.dfy ===
/**
 * The in-memory gem registry behind both mock APIs: a list of gem records
 * that only ever grows, where a new gem takes the id `len + 1` and a lookup
 * returns the first gem with the requested id.
 */
module Registry {
  import opened Wrappers

  /**
   * One gem record of the mock registry. The five client-supplied fields are
   * None where the client sent JSON `null`, which the record keeps.
   */
  datatype Gem = Gem(
    id: int,
    name: Option<string>,
    version: Option<string>,
    description: Option<string>,
    homepage: Option<string>,
    license: Option<string>,
    downloads: int,
    rating: real,
    createdAt: string,
    updatedAt: string,
    ratingsCount: int,
    badgesCount: int)

  /** A gem the service starts with: every client field is a string. */
  function StartingGem(id: int, name: string, version: string, description: string, homepage: string,
                       license: string, downloads: int, rating: real, createdAt: string, updatedAt: string,
                       ratingsCount: int, badgesCount: int): Gem {
    Gem(id, Some(name), Some(version), Some(description), Some(homepage), Some(license),
        downloads, rating, createdAt, updatedAt, ratingsCount, badgesCount)
  }

  /** The keys of a create request's JSON object: absent, `null`, or a string. */
  datatype GemInput = GemInput(
    name: Field<string>,
    version: Field<string>,
    description: Field<string>,
    homepage: Field<string>,
    license: Field<string>)

  /** The fixed creation time stamped on every new gem. */
  const CreatedAt := "2025-07-19T13:45:00Z"

  /** The record a create request makes: `.get` of each field with its default, and zero counters. */
  function NewGem(id: int, input: GemInput): Gem {
    Gem(id,
        input.name.Get("unknown"),
        input.version.Get("1.0.0"),
        input.description.Get(""),
        input.homepage.Get(""),
        input.license.Get("MIT"),
        0, 0.0, CreatedAt, CreatedAt, 0, 0)
  }

  /**
   * How a create request's key is stored: the given string, None for `null`,
   * and the default only when the key is absent.
   */
  ghost predicate StoredAs(f: Field<string>, stored: Option<string>, default: string) {
    && (f.Given? ==> stored == Some(f.value))
    && (f.Null? ==> stored == None)
    && (f.Absent? ==> stored == Some(default))
  }

  /**
   * `g` is the record a create request with `input` makes under `id`: each
   * client field stored as `.get` with its default reads it, zero counters and
   * the fixed time stamps.
   */
  ghost predicate MadeFrom(g: Gem, id: int, input: GemInput) {
    && g.id == id
    && StoredAs(input.name, g.name, "unknown") && StoredAs(input.version, g.version, "1.0.0")
    && StoredAs(input.description, g.description, "") && StoredAs(input.homepage, g.homepage, "")
    && StoredAs(input.license, g.license, "MIT")
    && g.downloads == 0 && g.rating == 0.0 && g.ratingsCount == 0 && g.badgesCount == 0
    && g.createdAt == CreatedAt && g.updatedAt == CreatedAt
  }

  /** Creating a gem: it is appended with id `len + 1`; the gems before it are untouched. */
  function Create(gems: seq<Gem>, input: GemInput): (r: (seq<Gem>, Gem))
    ensures |r.0| == |gems| + 1 && r.0[..|gems|] == gems && r.0[|gems|] == r.1
    ensures MadeFrom(r.1, |gems| + 1, input)
  {
    var g := NewGem(|gems| + 1, input);
    (gems + [g], g)
  }

  /** The first gem with the given id, or None when no gem has it. */
  function FindById(gems: seq<Gem>, id: int): (r: Option<Gem>)
    ensures r.Some? ==> exists k :: 0 <= k < |gems| && gems[k] == r.value && r.value.id == id
                                    && forall j :: 0 <= j < k ==> gems[j].id != id
    ensures r.None? ==> forall k :: 0 <= k < |gems| ==> gems[k].id != id
  {
    if gems == [] then None
    else if gems[0].id == id then Some(gems[0])
    else
      var r := FindById(gems[1..], id);
      assert forall k :: 0 < k < |gems| ==> gems[k] == gems[1..][k - 1];
      assert r.Some? ==> exists k :: 0 <= k < |gems| && gems[k] == r.value && r.value.id == id
                                      && forall j :: 0 <= j < k ==> gems[j].id != id by {
        if r.Some? {
          var k :| 0 <= k < |gems[1..]| && gems[1..][k] == r.value && r.value.id == id
                   && forall j :: 0 <= j < k ==> gems[1..][j].id != id;
          assert gems[k + 1] == r.value;
          assert forall j :: 0 < j < k + 1 ==> gems[j] == gems[1..][j - 1];
        }
      }
      r
  }

  /** The ids are exactly 1, 2, ..., n in list order. */
  ghost predicate IdsSequential(gems: seq<Gem>) {
    forall k :: 0 <= k < |gems| ==> gems[k].id == k + 1
  }

  /** With sequential ids, looking up id `i` gives the `i`-th gem, and nothing outside 1..n. */
  lemma FindSequential(gems: seq<Gem>, id: int)
    requires IdsSequential(gems)
    ensures FindById(gems, id) == if 1 <= id <= |gems| then Some(gems[id - 1]) else None
  {
    var r := FindById(gems, id);
    if r.Some? {
      var k :| 0 <= k < |gems| && gems[k] == r.value && r.value.id == id;
    }
  }

  /** A create keeps the ids sequential, and the new gem is the one its id finds. */
  lemma CreateSequential(gems: seq<Gem>, input: GemInput)
    requires IdsSequential(gems)
    ensures var (after, g) := Create(gems, input);
            && IdsSequential(after)
            && FindById(after, g.id) == Some(g)
            && forall k :: 0 <= k < |after| && after[k].id == g.id ==> after[k] == g
  {
    var (after, g) := Create(gems, input);
    assert forall k :: 0 <= k < |gems| ==> after[k] == gems[k];
    FindSequential(after, g.id);
  }

  /** The registry after the given create requests, in order. */
  function CreateAll(gems: seq<Gem>, inputs: seq<GemInput>): seq<Gem>
    decreases |inputs|
  {
    if inputs == [] then gems else CreateAll(Create(gems, inputs[0]).0, inputs[1..])
  }

  /**
   * Any sequence of creates keeps the ids exactly 1..n, keeps the earlier
   * gems in place, and appends one new gem per request, numbered in order.
   */
  lemma {:induction false} CreateAllSequential(gems: seq<Gem>, inputs: seq<GemInput>)
    requires IdsSequential(gems)
    ensures var after := CreateAll(gems, inputs);
            && IdsSequential(after)
            && |after| == |gems| + |inputs|
            && after[..|gems|] == gems
            && forall k :: 0 <= k < |inputs| ==> after[|gems| + k] == NewGem(|gems| + k + 1, inputs[k])
    decreases |inputs|
  {
    if inputs != [] {
      var next := Create(gems, inputs[0]).0;
      CreateSequential(gems, inputs[0]);
      CreateAllSequential(next, inputs[1..]);
      var after := CreateAll(gems, inputs);
      assert after[..|gems|] == after[..|next|][..|gems|];
      forall k | 0 <= k < |inputs|
        ensures after[|gems| + k] == NewGem(|gems| + k + 1, inputs[k])
      {
        if k == 0 {
          assert after[|gems|] == after[..|next|][|gems|];
        } else {
          assert inputs[1..][k - 1] == inputs[k];
        }
      }
    }
  }
}

=== FILE: simple_api.dfy ===
/**
 * The standard-library HTTP mock API: GET and POST handling over one
 * process-wide gem list. The request path is the one `http.server` hands to
 * the handler, with a leading run of `/` reduced to one. GET routes on that
 * path's URL path (query, fragment and `;` parameters removed, as `urlparse`
 * does); POST accepts only the path `/gems`.
 */
module SimpleApi {
  import opened Wrappers
  import Text
  import Numerals
  import Registry

  /** The two gems the server starts with. */
  const InitialGems: seq<Registry.Gem> := [
    Registry.StartingGem(1, "rails", "7.0.4", "Full-stack web application framework", "https://rubyonrails.org",
                         "MIT", 500000000, 4.8, "2023-01-01T00:00:00Z", "2023-12-01T00:00:00Z", 15000, 3),
    Registry.StartingGem(2, "sinatra", "3.0.0", "Lightweight web application DSL", "https://sinatrarb.com",
                         "MIT", 100000000, 4.5, "2023-01-01T00:00:00Z", "2023-11-01T00:00:00Z", 8000, 2)
  ]

  // ---------------------------------------------------------------------------
  // The path of a request URL
  // ---------------------------------------------------------------------------

  /** A character that ends the network location after a leading `//`. */
  predicate EndsNetloc(c: char) {
    c == '/' || c == '?' || c == '#'
  }

  /** The index of the first `/`, `?` or `#` at or after `i`, or the length when there is none. */
  function NetlocEnd(s: string, i: nat): (r: nat)
    requires i <= |s|
    ensures i <= r <= |s|
    ensures forall k :: i <= k < r ==> !EndsNetloc(s[k])
    ensures r < |s| ==> EndsNetloc(s[r])
    decreases |s| - i
  {
    if i == |s| || EndsNetloc(s[i]) then i else NetlocEnd(s, i + 1)
  }

  /**
   * Removes `;` parameters from the last path segment: the cut is at the first
   * `;` after the last `/`, and nothing is cut when there is no `;` at all.
   */
  function SplitParams(url: string): (r: string)
    ensures r <= url
    ensures ';' !in url ==> r == url
    ensures |r| < |url| ==> url[|r|] == ';' && '/' !in url[|r|..]
  {
    if ';' !in url then url
    else
      var tail := Text.AfterLast(url, '/');
      var head := url[..|url| - |tail|];
      var cut := Text.CutAt(tail, ';');
      SplitAtSuffix(url, tail);
      var r := head + cut;
      PrefixAppend(head, cut, tail);
      CutInLastSegment(head, tail, cut);
      r
  }

  lemma SplitAtSuffix(s: string, t: string)
    requires |t| <= |s| && t == s[|s| - |t|..]
    ensures s == s[..|s| - |t|] + t
  {
  }

  lemma PrefixAppend(h: string, a: string, b: string)
    requires a <= b
    ensures h + a <= h + b
  {
    assert (h + b)[..|h + a|] == h + b[..|a|];
  }

  /** Cutting inside a last segment leaves a remainder that starts at the cut character and has no `/`. */
  lemma CutInLastSegment(head: string, tail: string, cut: string)
    requires cut <= tail && '/' !in tail
    requires |cut| < |tail| ==> tail[|cut|] == ';'
    ensures |head + cut| < |head + tail| ==> (head + tail)[|head + cut|] == ';' && '/' !in (head + tail)[|head + cut|..]
  {
    var url := head + tail;
    if |cut| < |tail| {
      assert url[|head + cut|..] == tail[|cut|..];
      forall k | |cut| <= k < |tail| ensures tail[k] != '/' {
        assert tail[k] in tail;
      }
    }
  }

  /** `urlparse(raw).path` for a URL without a scheme. */
  function UrlPath(raw: string): (p: string)
    ensures '?' !in p && '#' !in p
  {
    var rest := if DoubleSlashed(raw) then raw[NetlocEnd(raw, 2)..] else raw;
    var noFragment := Text.CutAt(rest, '#');
    var noQuery := Text.CutAt(noFragment, '?');
    var p := SplitParams(noQuery);
    PrefixesAvoid(noFragment, noQuery, p);
    p
  }

  /** A prefix of a prefix of a text without `#` or `?` past the first has neither. */
  lemma PrefixesAvoid(noFragment: string, noQuery: string, p: string)
    requires '#' !in noFragment && '?' !in noQuery
    requires noQuery <= noFragment && p <= noQuery
    ensures '?' !in p && '#' !in p
  {
    assert forall k :: 0 <= k < |p| ==> p[k] == noQuery[k] && noQuery[k] == noFragment[k];
  }

  /** A request path that `urlparse` leaves as it is. */
  predicate PlainPath(p: string) {
    '?' !in p && '#' !in p && ';' !in p && !DoubleSlashed(p)
  }

  lemma CutAtAbsent(s: string, c: char)
    requires c !in s
    ensures Text.CutAt(s, c) == s
  {
  }

  /** A plain path is its own URL path. */
  lemma UrlPathPlain(p: string)
    requires PlainPath(p)
    ensures UrlPath(p) == p
  {
    CutAtAbsent(p, '#');
    CutAtAbsent(p, '?');
  }

  /** A query string after a plain path does not make it start with `//`. */
  lemma QueryNotDoubleSlashed(p: string, query: string)
    requires PlainPath(p)
    ensures !DoubleSlashed(p + "?" + query)
  {
    var raw := p + "?" + query;
    if |p| < 2 {
      if |raw| >= 2 {
        if |p| == 0 { assert raw[0] == '?'; } else { assert raw[1] == '?'; }
      }
    } else {
      assert raw[..2] == p[..2];
    }
  }

  /** A query string after a plain path does not change the URL path. */
  lemma UrlPathDropsQuery(p: string, query: string)
    requires PlainPath(p)
    requires '#' !in query
    ensures UrlPath(p + "?" + query) == p
  {
    var raw := p + "?" + query;
    assert raw[..|p|] == p;
    QueryNotDoubleSlashed(p, query);
    assert '#' !in raw;
    CutAtAbsent(raw, '#');
    assert raw[|p|] == '?';
    assert Text.CutAt(raw, '?') == p;
    CutAtAbsent(p, ';');
  }

  /** The string starts with `//`. */
  predicate DoubleSlashed(s: string) {
    |s| >= 2 && s[..2] == "//"
  }

  /** `s` without its leading run of `c` (Python's `s.lstrip(c)`). */
  function DropLeading(s: string, c: char): (r: string)
    ensures |r| <= |s| && r == s[|s| - |r|..]
    ensures forall k :: 0 <= k < |s| - |r| ==> s[k] == c
    ensures r == [] || r[0] != c
    decreases |s|
  {
    if s != [] && s[0] == c then DropLeading(s[1..], c) else s
  }

  /**
   * The path `BaseHTTPRequestHandler.parse_request` leaves in `self.path`:
   * one starting with `//` is reduced to a single leading `/` (Python 3.11 and
   * the releases that took that change), any other is kept.
   */
  function RequestPath(raw: string): (p: string)
    ensures !DoubleSlashed(p)
    ensures !DoubleSlashed(raw) ==> p == raw
    ensures DoubleSlashed(raw) ==> p == "/" + DropLeading(raw, '/')
  {
    if DoubleSlashed(raw) then
      var rest := DropLeading(raw, '/');
      assert |rest| >= 1 ==> ("/" + rest)[1] == rest[0];
      "/" + rest
    else raw
  }

  /** `n` slashes. */
  function Slashes(n: nat): (r: string)
    ensures |r| == n && forall k :: 0 <= k < n ==> r[k] == '/'
  {
    seq(n, _ => '/')
  }

  /** Stripping a run of slashes from the front leaves what followed it. */
  lemma {:induction false} DropSlashes(n: nat, p: string)
    requires p == [] || p[0] != '/'
    ensures DropLeading(Slashes(n) + p, '/') == p
  {
    if n > 0 {
      assert (Slashes(n) + p)[1..] == Slashes(n - 1) + p;
      DropSlashes(n - 1, p);
    } else {
      assert Slashes(n) + p == p;
    }
  }

  /** Any run of one or more leading slashes reaches the handler as one. */
  lemma RequestPathCollapses(n: nat, p: string)
    requires n >= 1
    requires p == [] || p[0] != '/'
    ensures RequestPath(Slashes(n) + p) == "/" + p
  {
    var raw := Slashes(n) + p;
    if n >= 2 {
      assert raw[..2] == "//";
      DropSlashes(n, p);
    } else {
      assert raw == "/" + p;
      if p != [] {
        assert raw[1] == p[0];
      }
    }
  }

  // ---------------------------------------------------------------------------
  // Responses
  // ---------------------------------------------------------------------------

  /** The JSON payloads the handler writes. */
  datatype Body =
    | HealthBody(status: string, timestamp: string)
    | GemsBody(gems: seq<Registry.Gem>)
    | GemBody(gem: Registry.Gem)
    | ErrorBody(error: string)

  datatype Response = Response(status: int, body: Body)

  const Healthy := HealthBody("healthy", "2025-07-19T13:45:00Z")

  /** The path asks for one gem. */
  predicate GemPath(path: string) {
    "/gems/" <= path
  }

  /** The gem id a path names: its last `/`-separated segment read as an integer. */
  function IdOf(path: string): Option<int> {
    Numerals.ParseInt(Text.AfterLast(path, '/'))
  }

  /**
   * The routing of `do_GET` on a URL path: health, the whole list, or one gem
   * by the id in the last path segment (400 when it is not an integer, 404
   * when no gem has it); 404 for any other path.
   */
  function Route(gems: seq<Registry.Gem>, path: string): (r: Response)
    ensures path == "/health" ==> r == Response(200, Healthy)
    ensures path == "/gems" ==> r == Response(200, GemsBody(gems))
    ensures r.status == 400 <==> GemPath(path) && IdOf(path).None?
    ensures r.body.GemBody? <==> GemPath(path) && IdOf(path).Some? && Registry.FindById(gems, IdOf(path).value).Some?
    ensures r.body.GemBody? ==> r.status == 200 && r.body.gem in gems && Some(r.body.gem.id) == IdOf(path)
    ensures r.body.GemBody? ==> Some(r.body.gem) == Registry.FindById(gems, IdOf(path).value)
    ensures GemPath(path) && IdOf(path).None? ==> r == Response(400, ErrorBody("Invalid gem ID"))
    ensures GemPath(path) && IdOf(path).Some? && Registry.FindById(gems, IdOf(path).value).None?
            ==> r == Response(404, ErrorBody("Gem not found"))
    ensures path != "/health" && path != "/gems" && !GemPath(path) ==> r == Response(404, ErrorBody("Not found"))
    ensures r.status == 200 || r.status == 400 || r.status == 404
  {
    if path == "/health" then Response(200, Healthy)
    else if path == "/gems" then Response(200, GemsBody(gems))
    else if GemPath(path) then
      match IdOf(path)
      case None => Response(400, ErrorBody("Invalid gem ID"))
      case Some(id) =>
        match Registry.FindById(gems, id)
        case None => Response(404, ErrorBody("Gem not found"))
        case Some(g) =>
          assert g in gems && g.id == id by {
            var k :| 0 <= k < |gems| && gems[k] == g && g.id == id;
          }
          Response(200, GemBody(g))
    else Response(404, ErrorBody("Not found"))
  }

  /** `do_GET`: routing on the URL path of the path the handler receives. */
  function HandleGet(gems: seq<Registry.Gem>, raw: string): Response {
    Route(gems, UrlPath(RequestPath(raw)))
  }

  /** A GET answers the same with or without a query string. */
  lemma GetIgnoresQuery(gems: seq<Registry.Gem>, p: string, query: string)
    requires PlainPath(p)
    requires '#' !in query
    ensures HandleGet(gems, p + "?" + query) == HandleGet(gems, p)
  {
    QueryNotDoubleSlashed(p, query);
    assert RequestPath(p + "?" + query) == p + "?" + query;
    assert RequestPath(p) == p;
    UrlPathDropsQuery(p, query);
    UrlPathPlain(p);
  }

  /**
   * `do_POST`: only the path `/gems` creates; a body that is not valid JSON
   * (None) answers 400 and changes nothing; any other path answers 404.
   */
  function HandlePost(gems: seq<Registry.Gem>, raw: string, body: Option<Registry.GemInput>): (r: (seq<Registry.Gem>, Response))
    ensures r.1.status == 201 <==> RequestPath(raw) == "/gems" && body.Some?
    ensures r.1.status == 400 <==> RequestPath(raw) == "/gems" && body.None?
    ensures RequestPath(raw) == "/gems" && body.None? ==> r.1 == Response(400, ErrorBody("Invalid JSON"))
    ensures RequestPath(raw) != "/gems" ==> r.1 == Response(404, ErrorBody("Not found"))
    ensures r.1.status != 201 ==> r.0 == gems
    ensures r.1.status == 201 ==> r.1.body.GemBody? && r.0 == gems + [r.1.body.gem]
    ensures r.1.status == 201 ==> Registry.MadeFrom(r.1.body.gem, |gems| + 1, body.value)
  {
    if RequestPath(raw) == "/gems" then
      match body
      case None => (gems, Response(400, ErrorBody("Invalid JSON")))
      case Some(input) =>
        var (after, g) := Registry.Create(gems, input);
        assert after == gems + [g];
        (after, Response(201, GemBody(g)))
    else (gems, Response(404, ErrorBody("Not found")))
  }

  /**
   * Extra leading slashes change nothing: GET and POST of `//...//p` answer as
   * for `/p`, so `//gems` lists and creates like `/gems`.
   */
  lemma ExtraSlashesIgnored(gems: seq<Registry.Gem>, n: nat, p: string, body: Option<Registry.GemInput>)
    requires n >= 1
    requires p == [] || p[0] != '/'
    ensures HandleGet(gems, Slashes(n) + p) == HandleGet(gems, "/" + p)
    ensures HandlePost(gems, Slashes(n) + p, body) == HandlePost(gems, "/" + p, body)
  {
    RequestPathCollapses(n, p);
    RequestPathCollapses(1, p);
  }

  /** One request: a GET of a raw path, or a POST of a raw path with its body (None when not valid JSON). */
  datatype Request = Get(path: string) | Post(path: string, body: Option<Registry.GemInput>)

  function Handle(gems: seq<Registry.Gem>, req: Request): (seq<Registry.Gem>, Response) {
    match req
    case Get(raw) => (gems, HandleGet(gems, raw))
    case Post(raw, body) => HandlePost(gems, raw, body)
  }

  /** The gem list after serving the requests in order. */
  function Serve(gems: seq<Registry.Gem>, reqs: seq<Request>): seq<Registry.Gem>
    decreases |reqs|
  {
    if reqs == [] then gems else Serve(Handle(gems, reqs[0]).0, reqs[1..])
  }

  /** Whatever requests arrive, the list only grows at its end and its ids stay exactly 1..n. */
  lemma {:induction false} ServeSequential(gems: seq<Registry.Gem>, reqs: seq<Request>)
    requires Registry.IdsSequential(gems)
    ensures var after := Serve(gems, reqs);
            Registry.IdsSequential(after) && |gems| <= |after| && after[..|gems|] == gems
    decreases |reqs|
  {
    if reqs != [] {
      var next := Handle(gems, reqs[0]).0;
      if reqs[0].Post? && RequestPath(reqs[0].path) == "/gems" && reqs[0].body.Some? {
        Registry.CreateSequential(gems, reqs[0].body.value);
      }
      ServeSequential(next, reqs[1..]);
      var after := Serve(gems, reqs);
      assert after[..|gems|] == after[..|next|][..|gems|];
    }
  }

  /** The server's starting list already has ids 1..n, so every list it ever holds does. */
  lemma ServedFromStart(reqs: seq<Request>)
    ensures Registry.IdsSequential(Serve(InitialGems, reqs))
    ensures |Serve(InitialGems, reqs)| >= 2
    ensures Serve(InitialGems, reqs)[..2] == InitialGems
  {
    ServeSequential(InitialGems, reqs);
  }

  /**
   * With ids 1..n, GET of `/gems/<k>` answers gem `k` when it exists and 404
   * otherwise; an id of more digits than `int()` converts answers 400.
   */
  lemma GetById(gems: seq<Registry.Gem>, k: nat)
    requires Registry.IdsSequential(gems)
    ensures HandleGet(gems, "/gems/" + Numerals.ToDecimal(k))
         == if |Numerals.ToDecimal(k)| > Numerals.MaxStrDigits then Response(400, ErrorBody("Invalid gem ID"))
            else if 1 <= k <= |gems| then Response(200, GemBody(gems[k - 1]))
            else Response(404, ErrorBody("Gem not found"))
  {
    var raw := "/gems/" + Numerals.ToDecimal(k);
    GemPathOf(k);
    Registry.FindSequential(gems, k);
    assert raw != "/health" && raw != "/gems" by {
      assert |raw| > 6;
    }
  }

  /** `/gems/<k>` reaches the handler as it is, is its own URL path, and names the gem id `k`. */
  lemma GemPathOf(k: nat)
    ensures var raw := "/gems/" + Numerals.ToDecimal(k);
            && RequestPath(raw) == raw && UrlPath(raw) == raw && GemPath(raw)
            && IdOf(raw) == if |Numerals.ToDecimal(k)| <= Numerals.MaxStrDigits then Some(k as int) else None
  {
    var digits := Numerals.ToDecimal(k);
    var raw := "/gems/" + digits;
    assert raw[..2] == "/g";
    assert forall i :: 0 <= i < |digits| ==> raw[6 + i] == digits[i];
    UrlPathPlain(raw);
    assert GemPath(raw);
    assert Text.AfterLast(raw, '/') == digits by {
      var tail := Text.AfterLast(raw, '/');
      assert raw[5] == '/';
      assert |tail| == |digits|;
    }
    Numerals.ParseToDecimal(k);
  }

  /**
   * A gem created by POST is answered by GET of its id, as long as the id
   * has no more digits than `int()` converts.
   */
  lemma CreatedIsFetchable(gems: seq<Registry.Gem>, input: Registry.GemInput)
    requires Registry.IdsSequential(gems)
    ensures var (after, resp) := HandlePost(gems, "/gems", Some(input));
            && resp.status == 201
            && HandleGet(after, "/gems/" + Numerals.ToDecimal(|gems| + 1))
               == if |Numerals.ToDecimal(|gems| + 1)| <= Numerals.MaxStrDigits then Response(200, resp.body)
                  else Response(400, ErrorBody("Invalid gem ID"))
  {
    var (after, resp) := HandlePost(gems, "/gems", Some(input));
    assert RequestPath("/gems") == "/gems" by {
      assert "/gems"[..2] == "/g";
    }
    Registry.CreateSequential(gems, input);
    GetById(after, |gems| + 1);
  }

  /** A path `/gems/` with nothing after it is an invalid id. */
  lemma EmptyIdIsInvalid(gems: seq<Registry.Gem>)
    ensures HandleGet(gems, "/gems/") == Response(400, ErrorBody("Invalid gem ID"))
  {
    var p := "/gems/";
    assert p[..2] == "/g";
    assert RequestPath(p) == p;
    UrlPathPlain(p);
    assert p[5] == '/';
  }
}

=== FILE: sorting.dfy ===
/**
 * Ordering of sequences: a stable insertion sort over any total preorder,
 * Python's lexicographic string order, and the facts the ranking fallbacks
 * need about both.
 */
module Sorting {

  /** `le` is total and transitive: a ranking order that may tie distinct values. */
  ghost predicate TotalPreorder<T(!new)>(le: (T, T) -> bool) {
    && (forall a, b :: le(a, b) || le(b, a))
    && (forall a, b, c :: le(a, b) && le(b, c) ==> le(a, c))
  }

  /** Every element is `le` every later element. */
  ghost predicate SortedBy<T>(xs: seq<T>, le: (T, T) -> bool) {
    forall i, j :: 0 <= i < j < |xs| ==> le(xs[i], xs[j])
  }

  /** On the elements of `xs`, `le` ties only equal values. */
  ghost predicate AntisymmetricOn<T>(xs: seq<T>, le: (T, T) -> bool) {
    forall i, j :: 0 <= i < |xs| && 0 <= j < |xs| && le(xs[i], xs[j]) && le(xs[j], xs[i]) ==> xs[i] == xs[j]
  }

  /** Places `x` after every element it does not precede, so ties keep arrival order. */
  function Insert<T(!new)>(xs: seq<T>, x: T, le: (T, T) -> bool): (r: seq<T>)
    requires TotalPreorder(le)
    requires SortedBy(xs, le)
    ensures multiset(r) == multiset(xs) + multiset{x}
    ensures SortedBy(r, le)
  {
    if xs == [] then [x]
    else if le(xs[|xs| - 1], x) then xs + [x]
    else
      var init, last := xs[..|xs| - 1], xs[|xs| - 1];
      assert xs == init + [last];
      var front := Insert(init, x, le);
      assert forall i :: 0 <= i < |front| ==> le(front[i], last) by {
        forall i | 0 <= i < |front|
          ensures le(front[i], last)
        {
          assert front[i] in multiset(front);
          if front[i] != x {
            assert front[i] in multiset(init);
            var k :| 0 <= k < |init| && init[k] == front[i];
            assert xs[k] == init[k];
          }
        }
      }
      front + [last]
  }

  /** A stable sort: the result is a permutation of `xs`, ordered by `le`. */
  function InsertionSort<T(!new)>(xs: seq<T>, le: (T, T) -> bool): (r: seq<T>)
    requires TotalPreorder(le)
    ensures multiset(r) == multiset(xs)
    ensures SortedBy(r, le)
  {
    if xs == [] then []
    else
      assert xs == xs[..|xs| - 1] + [xs[|xs| - 1]];
      Insert(InsertionSort(xs[..|xs| - 1], le), xs[|xs| - 1], le)
  }

  /** When `le` ties no two distinct elements, a sorted permutation is unique. */
  lemma {:induction false} SortedPermutationUnique<T>(xs: seq<T>, ys: seq<T>, le: (T, T) -> bool)
    requires multiset(xs) == multiset(ys)
    requires SortedBy(xs, le) && SortedBy(ys, le)
    requires AntisymmetricOn(xs, le)
    ensures xs == ys
  {
    if xs == [] {
      assert |ys| == |multiset(ys)| == 0;
    } else {
      assert |ys| == |multiset(ys)| == |multiset(xs)| == |xs|;
      assert xs[0] in multiset(ys);
      var k :| 0 <= k < |ys| && ys[k] == xs[0];
      assert ys[0] in multiset(xs);
      var m :| 0 <= m < |xs| && xs[m] == ys[0];
      if k != 0 && m != 0 {
        assert le(ys[0], ys[k]);
        assert le(xs[0], xs[m]);
      }
      assert xs[0] == ys[0];
      assert xs == [xs[0]] + xs[1..];
      assert ys == [ys[0]] + ys[1..];
      assert multiset(xs) == multiset{xs[0]} + multiset(xs[1..]);
      assert multiset(ys) == multiset{ys[0]} + multiset(ys[1..]);
      Cancel(xs[0], multiset(xs[1..]), multiset(ys[1..]));
      assert AntisymmetricOn(xs[1..], le) by {
        forall i, j | 0 <= i < |xs[1..]| && 0 <= j < |xs[1..]| && le(xs[1..][i], xs[1..][j]) && le(xs[1..][j], xs[1..][i])
          ensures xs[1..][i] == xs[1..][j]
        {
          assert xs[1..][i] == xs[i + 1] && xs[1..][j] == xs[j + 1];
        }
      }
      SortedTail(xs, le);
      SortedTail(ys, le);
      SortedPermutationUnique(xs[1..], ys[1..], le);
    }
  }

  lemma SortedTail<T>(xs: seq<T>, le: (T, T) -> bool)
    requires xs != [] && SortedBy(xs, le)
    ensures SortedBy(xs[1..], le)
  {
    forall i, j | 0 <= i < j < |xs| - 1
      ensures le(xs[1..][i], xs[1..][j])
    {
      assert xs[1..][i] == xs[i + 1] && xs[1..][j] == xs[j + 1];
    }
  }

  /** No value appears twice. */
  ghost predicate Distinct<T>(xs: seq<T>) {
    forall i, j :: 0 <= i < j < |xs| ==> xs[i] != xs[j]
  }

  lemma {:induction false} DistinctCount<T>(xs: seq<T>, v: T)
    requires Distinct(xs)
    ensures multiset(xs)[v] <= 1
  {
    if xs != [] {
      assert xs == [xs[0]] + xs[1..];
      assert Distinct(xs[1..]) by {
        forall i, j | 0 <= i < j < |xs[1..]|
          ensures xs[1..][i] != xs[1..][j]
        {
          assert xs[1..][i] == xs[i + 1] && xs[1..][j] == xs[j + 1];
        }
      }
      DistinctCount(xs[1..], v);
      if xs[0] == v {
        assert v !in xs[1..];
      }
    }
  }

  /** A permutation of a sequence without repeats has no repeats. */
  lemma DistinctPermutation<T>(xs: seq<T>, ys: seq<T>)
    requires multiset(xs) == multiset(ys)
    requires Distinct(xs)
    ensures Distinct(ys)
  {
    forall i, j | 0 <= i < j < |ys|
      ensures ys[i] != ys[j]
    {
      var v := ys[i];
      DistinctCount(xs, v);
      assert ys == ys[..j] + [ys[j]] + ys[j + 1..];
      assert v in ys[..j];
      assert multiset(ys)[v] == multiset(ys[..j])[v] + multiset([ys[j]])[v] + multiset(ys[j + 1..])[v];
    }
  }

  lemma Cancel<T>(x: T, a: multiset<T>, b: multiset<T>)
    requires multiset{x} + a == multiset{x} + b
    ensures a == b
  {
    assert forall y :: a[y] == (multiset{x} + a)[y] - multiset{x}[y];
    assert forall y :: b[y] == (multiset{x} + b)[y] - multiset{x}[y];
  }

  /** Python's `[f(x) for x in xs]`. */
  function MapSeq<T, U>(xs: seq<T>, f: T -> U): (r: seq<U>)
    ensures |r| == |xs|
    ensures forall i :: 0 <= i < |xs| ==> r[i] == f(xs[i])
  {
    if xs == [] then [] else [f(xs[0])] + MapSeq(xs[1..], f)
  }

  lemma MapConcat<T, U>(a: seq<T>, b: seq<T>, f: T -> U)
    ensures MapSeq(a + b, f) == MapSeq(a, f) + MapSeq(b, f)
  {
    assert |MapSeq(a + b, f)| == |MapSeq(a, f) + MapSeq(b, f)|;
    forall i | 0 <= i < |a + b|
      ensures MapSeq(a + b, f)[i] == (MapSeq(a, f) + MapSeq(b, f))[i]
    {
      if i < |a| {
        assert (a + b)[i] == a[i];
      } else {
        assert (a + b)[i] == b[i - |a|];
      }
    }
  }

  lemma MapSplice<T, U>(a: seq<T>, x: T, b: seq<T>, f: T -> U)
    ensures multiset(MapSeq(a + [x] + b, f)) == multiset(MapSeq(a + b, f)) + multiset{f(x)}
  {
    MapConcat(a + [x], b, f);
    MapConcat(a, [x], f);
    MapConcat(a, b, f);
    assert MapSeq([x], f) == [f(x)];
  }

  /** Removing the head of `xs` from its permutation `ys` leaves a permutation of the tail. */
  lemma PermutationTail<T>(xs: seq<T>, ys: seq<T>, k: nat)
    requires multiset(xs) == multiset(ys)
    requires xs != [] && k < |ys| && ys[k] == xs[0]
    ensures ys == ys[..k] + [xs[0]] + ys[k + 1..]
    ensures multiset(ys[..k] + ys[k + 1..]) == multiset(xs[1..])
  {
    var x := xs[0];
    assert ys == ys[..k] + [x] + ys[k + 1..];
    assert xs == [x] + xs[1..];
    assert multiset(ys) == multiset{x} + multiset(ys[..k] + ys[k + 1..]);
    assert multiset(xs) == multiset{x} + multiset(xs[1..]);
    Cancel(x, multiset(ys[..k] + ys[k + 1..]), multiset(xs[1..]));
  }

  /** Mapping a permutation gives a permutation of the mapped values. */
  lemma {:induction false} MapPreservesPermutation<T, U>(xs: seq<T>, ys: seq<T>, f: T -> U)
    requires multiset(xs) == multiset(ys)
    ensures multiset(MapSeq(xs, f)) == multiset(MapSeq(ys, f))
    decreases |xs|
  {
    if xs == [] {
      assert |ys| == |multiset(ys)| == 0;
    } else {
      assert xs[0] in multiset(ys);
      var k :| 0 <= k < |ys| && ys[k] == xs[0];
      PermutationTail(xs, ys, k);
      MapPreservesPermutation(xs[1..], ys[..k] + ys[k + 1..], f);
      var x, before, after := xs[0], ys[..k], ys[k + 1..];
      assert xs == [x] + xs[1..];
      assert MapSeq(xs, f) == [f(x)] + MapSeq(xs[1..], f);
      assert multiset(MapSeq(xs, f)) == multiset{f(x)} + multiset(MapSeq(xs[1..], f));
      MapSplice(before, x, after, f);
    }
  }

  /** Python's `a <= b` on strings: code-point lexicographic order, a prefix first. */
  predicate LexLe(a: string, b: string) {
    a == [] || (b != [] && (a[0] < b[0] || (a[0] == b[0] && LexLe(a[1..], b[1..]))))
  }

  lemma {:induction false} LexTotal(a: string, b: string)
    ensures LexLe(a, b) || LexLe(b, a)
  {
    if a != [] && b != [] && a[0] == b[0] {
      LexTotal(a[1..], b[1..]);
    }
  }

  lemma {:induction false} LexTransitive(a: string, b: string, c: string)
    requires LexLe(a, b) && LexLe(b, c)
    ensures LexLe(a, c)
  {
    if a != [] && a[0] == b[0] && b[0] == c[0] {
      LexTransitive(a[1..], b[1..], c[1..]);
    }
  }

  lemma {:induction false} LexAntisymmetric(a: string, b: string)
    requires LexLe(a, b) && LexLe(b, a)
    ensures a == b
  {
    if a != [] {
      LexAntisymmetric(a[1..], b[1..]);
      assert a == [a[0]] + a[1..] && b == [b[0]] + b[1..];
    }
  }

  /** Lexicographic order is total and transitive. */
  lemma LexIsTotalPreorder()
    ensures TotalPreorder(LexLe)
  {
    forall a, b {
      LexTotal(a, b);
    }
    forall a, b, c | LexLe(a, b) && LexLe(b, c) {
      LexTransitive(a, b, c);
    }
  }

  /** Lexicographic order ties only equal strings. */
  lemma LexAntisymmetricOn(xs: seq<string>)
    ensures AntisymmetricOn(xs, LexLe)
  {
    forall i, j | 0 <= i < |xs| && 0 <= j < |xs| && LexLe(xs[i], xs[j]) && LexLe(xs[j], xs[i])
      ensures xs[i] == xs[j]
    {
      LexAntisymmetric(xs[i], xs[j]);
    }
  }
}

=== FILE: text.dfy ===
/**
 * The handful of Python `str` operations the services rely on, with Python's
 * semantics written out: `in`, `find`, slicing with negative bounds, `strip`,
 * `join` and `split`.
 */
module Text {

  /** The characters for which Python's `str.isspace()` holds; `str.strip()` removes them. */
  predicate IsSpace(c: char) {
    || c == ' '
    || ('\t' <= c <= '\r')
    || ('\U{1C}' <= c <= '\U{1F}')
    || c == '\U{85}' || c == '\U{A0}' || c == '\U{1680}'
    || ('\U{2000}' <= c <= '\U{200A}')
    || c == '\U{2028}' || c == '\U{2029}' || c == '\U{202F}' || c == '\U{205F}' || c == '\U{3000}'
  }

  /** `pat` occurs in `s` starting at index `i`. */
  predicate OccursAt(s: string, pat: string, i: int) {
    0 <= i && i + |pat| <= |s| && s[i..i + |pat|] == pat
  }

  /** Python's `pat in s`. */
  predicate Contains(s: string, pat: string) {
    exists i | 0 <= i <= |s| - |pat| :: OccursAt(s, pat, i)
  }

  /** `i` is the first index at or after `from` where `pat` occurs. */
  ghost predicate FirstFrom(s: string, pat: string, from: int, i: int) {
    from <= i && OccursAt(s, pat, i) && forall j :: from <= j < i ==> !OccursAt(s, pat, j)
  }

  /** `pat` does not occur at or after index `from`. */
  ghost predicate AbsentFrom(s: string, pat: string, from: int) {
    forall j :: from <= j ==> !OccursAt(s, pat, j)
  }

  /** Python's `s.find(pat, start)`: the first occurrence at or after `start`, or -1. */
  function Find(s: string, pat: string, start: nat): (r: int)
    ensures r == -1 ==> AbsentFrom(s, pat, start)
    ensures r != -1 ==> FirstFrom(s, pat, start, r)
    decreases |s| - start
  {
    if start + |pat| > |s| then -1
    else if s[start..start + |pat|] == pat then start
    else Find(s, pat, start + 1)
  }

  lemma ContainsIffFound(s: string, pat: string)
    ensures Contains(s, pat) <==> Find(s, pat, 0) != -1
  {
    var r := Find(s, pat, 0);
    if r != -1 {
      assert OccursAt(s, pat, r);
    }
  }

  /** A string containing `longer` also contains every prefix of `longer`. */
  lemma ContainsPrefix(s: string, longer: string, shorter: string)
    requires shorter <= longer
    requires Contains(s, longer)
    ensures Contains(s, shorter)
  {
    var i :| 0 <= i <= |s| - |longer| && OccursAt(s, longer, i);
    assert s[i..i + |shorter|] == longer[..|shorter|];
    assert OccursAt(s, shorter, i);
  }

  /** Python's normalisation of one slice bound against a sequence of length `n`. */
  function SliceBound(b: int, n: nat): (r: nat)
    ensures r <= n
    ensures 0 <= b <= n ==> r == b
    ensures b < 0 && 0 <= b + n ==> r == n + b
    ensures b + n < 0 ==> r == 0
    ensures b > n ==> r == n
  {
    if b < 0 then (if b + n < 0 then 0 else b + n)
    else if b > n then n
    else b
  }

  /** Python's `s[start:end]` (step 1), including negative and out-of-range bounds. */
  function Slice(s: string, start: int, end: int): (r: string)
    ensures |r| <= |s|
  {
    var lo := SliceBound(start, |s|);
    var hi := SliceBound(end, |s|);
    if hi <= lo then [] else s[lo..hi]
  }

  function Max(a: int, b: int): int {
    if a < b then b else a
  }

  /** A slice between in-range bounds is the plain subsequence. */
  lemma SliceInRange(s: string, lo: int, hi: int)
    requires 0 <= lo <= hi <= |s|
    ensures Slice(s, lo, hi) == s[lo..hi]
  {
  }

  /** A slice ending at -1 stops before the final character, and is empty if it starts there or later. */
  lemma SliceToMinusOne(s: string, lo: int)
    requires 0 <= lo <= |s| && |s| >= 1
    ensures Slice(s, lo, -1) == s[lo..Max(lo, |s| - 1)]
  {
  }

  /** `s` with its leading whitespace removed (Python's `lstrip()`). */
  function StripLeading(s: string): (r: string)
    ensures |r| <= |s| && r == s[|s| - |r|..]
    ensures forall k :: 0 <= k < |s| - |r| ==> IsSpace(s[k])
    ensures r == [] || !IsSpace(r[0])
  {
    if s == [] || !IsSpace(s[0]) then s else StripLeading(s[1..])
  }

  /** `s` with its trailing whitespace removed (Python's `rstrip()`). */
  function StripTrailing(s: string): (r: string)
    ensures |r| <= |s| && r == s[..|r|]
    ensures forall k :: |r| <= k < |s| ==> IsSpace(s[k])
    ensures r == [] || !IsSpace(r[|r| - 1])
  {
    if s == [] || !IsSpace(s[|s| - 1]) then s else StripTrailing(s[..|s| - 1])
  }

  /** Python's `s.strip()`: the longest middle piece that neither starts nor ends with whitespace. */
  function Strip(s: string): (r: string)
    ensures exists i, j :: 0 <= i <= j <= |s| && r == s[i..j]
                           && (forall k :: 0 <= k < i ==> IsSpace(s[k]))
                           && (forall k :: j <= k < |s| ==> IsSpace(s[k]))
    ensures r == [] || (!IsSpace(r[0]) && !IsSpace(r[|r| - 1]))
  {
    var left := StripLeading(s);
    var r := StripTrailing(left);
    StripPiece(s, left, r);
    r
  }

  /**
   * A piece of `s` cut from a start of `s` left without leading whitespace,
   * by removing trailing whitespace, is what `strip()` promises.
   */
  lemma StripPiece(s: string, left: string, r: string)
    requires |left| <= |s| && left == s[|s| - |left|..]
    requires forall k :: 0 <= k < |s| - |left| ==> IsSpace(s[k])
    requires left == [] || !IsSpace(left[0])
    requires |r| <= |left| && r == left[..|r|]
    requires forall k :: |r| <= k < |left| ==> IsSpace(left[k])
    requires r == [] || !IsSpace(r[|r| - 1])
    ensures exists i, j :: 0 <= i <= j <= |s| && r == s[i..j]
                           && (forall k :: 0 <= k < i ==> IsSpace(s[k]))
                           && (forall k :: j <= k < |s| ==> IsSpace(s[k]))
    ensures r == [] || (!IsSpace(r[0]) && !IsSpace(r[|r| - 1]))
  {
    var i := |s| - |left|;
    var j := i + |r|;
    assert r == s[i..j];
    forall k | j <= k < |s|
      ensures IsSpace(s[k])
    {
      assert s[k] == left[k - i];
    }
    assert r != [] ==> r[0] == left[0];
  }

  /** Python's `sep.join(parts)`. */
  function Join(parts: seq<string>, sep: string): string
  {
    if |parts| == 0 then []
    else if |parts| == 1 then parts[0]
    else parts[0] + sep + Join(parts[1..], sep)
  }

  /** A character in neither the parts nor the separator is not in their join. */
  lemma {:induction false} JoinAvoids(parts: seq<string>, sep: string, c: char)
    requires c !in sep
    requires forall k :: 0 <= k < |parts| ==> c !in parts[k]
    ensures c !in Join(parts, sep)
  {
    if |parts| > 1 {
      JoinAvoids(parts[1..], sep, c);
    }
  }

  /** A text found in `b` is found in `a + b` too, shifted by `|a|`. */
  lemma ContainsAfter(a: string, b: string, pat: string)
    requires Contains(b, pat)
    ensures Contains(a + b, pat)
  {
    var i :| 0 <= i <= |b| - |pat| && OccursAt(b, pat, i);
    assert (a + b)[|a| + i..|a| + i + |pat|] == b[i..i + |pat|];
    assert OccursAt(a + b, pat, |a| + i);
  }

  /** Every part is found in the join: `parts[k] in sep.join(parts)`. */
  lemma {:induction false} JoinContains(parts: seq<string>, sep: string, k: int)
    requires 0 <= k < |parts|
    ensures Contains(Join(parts, sep), parts[k])
  {
    var j := Join(parts, sep);
    if k == 0 {
      assert j[..|parts[0]|] == parts[0];
      assert OccursAt(j, parts[0], 0);
    } else {
      JoinContains(parts[1..], sep, k - 1);
      assert parts[1..][k - 1] == parts[k];
      ContainsAfter(parts[0] + sep, Join(parts[1..], sep), parts[k]);
    }
  }

  /** Python's `s.split(c)` for a one-character separator: never an empty list. */
  function Split(s: string, c: char): (r: seq<string>)
    ensures |r| >= 1
    ensures forall k :: 0 <= k < |r| ==> c !in r[k]
    decreases |s|
  {
    if c !in s then [s]
    else
      var i := IndexOf(s, c);
      [s[..i]] + Split(s[i + 1..], c)
  }

  /** The index of the first `c` in `s`. */
  function IndexOf(s: string, c: char): (i: nat)
    requires c in s
    ensures i < |s| && s[i] == c && c !in s[..i]
  {
    if s[0] == c then 0 else IndexOf(s[1..], c) + 1
  }

  /** `s` up to its first `c` (all of `s` when it has none): what `s.split(c, 1)[0]` keeps. */
  function CutAt(s: string, c: char): (r: string)
    ensures r <= s && c !in r
    ensures |r| < |s| ==> s[|r|] == c
  {
    if c in s then s[..IndexOf(s, c)] else s
  }

  /** Python's `s.split(c)[-1]`: what follows the last `c`, or all of `s` when it has none. */
  function AfterLast(s: string, c: char): (r: string)
    ensures c !in r
    ensures |r| <= |s| && r == s[|s| - |r|..]
    ensures |r| < |s| ==> s[|s| - |r| - 1] == c
    decreases |s|
  {
    if s == [] || s[|s| - 1] == c then []
    else
      var r := AfterLast(s[..|s| - 1], c) + [s[|s| - 1]];
      assert s == s[..|s| - 1] + [s[|s| - 1]];
      r
  }

  /** Splitting a join on a separator that no part contains gives back the parts. */
  lemma {:induction false} SplitJoin(parts: seq<string>, c: char)
    requires |parts| >= 1
    requires forall k :: 0 <= k < |parts| ==> c !in parts[k]
    ensures Split(Join(parts, [c]), c) == parts
  {
    if |parts| > 1 {
      var tail := parts[1..];
      assert forall k :: 0 <= k < |tail| ==> tail[k] == parts[k + 1];
      SplitJoin(tail, c);
      SplitCons(parts[0], Join(tail, [c]), c);
      assert parts == [parts[0]] + tail;
    }
  }

  /** A piece without the separator, then the separator, splits off as the first part. */
  lemma SplitCons(head: string, rest: string, c: char)
    requires c !in head
    ensures Split(head + [c] + rest, c) == [head] + Split(rest, c)
  {
    var s := head + [c] + rest;
    assert forall k :: 0 <= k < |head| ==> s[k] == head[k];
    IndexOfAt(s, c, |head|);
    assert s[..|head|] == head;
    assert s[|head| + 1..] == rest;
  }

  /** A `c` at `n` with none before it is the first `c`. */
  lemma IndexOfAt(s: string, c: char, n: nat)
    requires n < |s| && s[n] == c
    requires forall k :: 0 <= k < n ==> s[k] != c
    ensures c in s && IndexOf(s, c) == n
  {
  }
}

=== FILE: vector_store.dfy ===
/**
 * The bookkeeping of the gem vector store: the text each gem is embedded
 * from, the metadata table kept next to the vector index, and the assembly
 * of search results from the index's hits.
 *
 * The embedding model and the index's similarity search are an oracle: a
 * search is given the (score, vector id) pairs the index returned, with -1
 * standing for "no hit". The index itself is reduced to its vector count.
 */
module VectorStore {
  import opened Wrappers
  import Text
  import Sorting
  import JsonList

  // ---------------------------------------------------------------------------
  // Embedding text
  // ---------------------------------------------------------------------------

  /** The README is cut to this many characters before embedding. */
  const ReadmeLimit: nat := 2000

  /** The sections of the embedding text, in the order they appear. */
  datatype Section = GemSection | DescriptionSection | KeywordsSection | DocumentationSection {
    function Label(): string {
      match this
      case GemSection => "Gem: "
      case DescriptionSection => "Description: "
      case KeywordsSection => "Keywords: "
      case DocumentationSection => "Documentation: "
    }

    function Position(): nat {
      match this
      case GemSection => 0
      case DescriptionSection => 1
      case KeywordsSection => 2
      case DocumentationSection => 3
    }
  }

  /** One line of the embedding text before rendering: its section and what follows the label. */
  datatype Part = Part(section: Section, body: string)

  function Render(p: Part): string {
    p.section.Label() + p.body
  }

  /** The first `min(ReadmeLimit, |readme|)` characters of the README. */
  function TruncateReadme(readme: string): (r: string)
    ensures |r| == if |readme| > ReadmeLimit then ReadmeLimit else |readme|
    ensures r <= readme
  {
    if |readme| > ReadmeLimit then readme[..ReadmeLimit] else readme
  }

  /** The inputs of the embedding text. */
  datatype Inputs = Inputs(name: string, description: string, readme: string, keywords: seq<string>)

  /** A section appears exactly when its input is non-empty. */
  predicate Present(section: Section, g: Inputs) {
    match section
    case GemSection => g.name != []
    case DescriptionSection => g.description != []
    case KeywordsSection => g.keywords != []
    case DocumentationSection => g.readme != []
  }

  /** What follows the label of each section: the input as given, keywords joined by ", ", the README cut short. */
  function BodyFor(section: Section, g: Inputs): string {
    match section
    case GemSection => g.name
    case DescriptionSection => g.description
    case KeywordsSection => Text.Join(g.keywords, ", ")
    case DocumentationSection => TruncateReadme(g.readme)
  }

  /** The section at position `p` of the fixed order. */
  function SectionAt(p: nat): (s: Section)
    requires p < 4
    ensures s.Position() == p
  {
    if p == 0 then GemSection
    else if p == 1 then DescriptionSection
    else if p == 2 then KeywordsSection
    else DocumentationSection
  }

  ghost predicate HasSection(parts: seq<Part>, s: Section) {
    exists k :: 0 <= k < |parts| && parts[k].section == s
  }

  /** The parts are in strictly increasing section order. */
  ghost predicate Ordered(parts: seq<Part>) {
    forall i, j :: 0 <= i < j < |parts| ==> parts[i].section.Position() < parts[j].section.Position()
  }

  /** Every part is a present section at position `from` or later, carrying its own body. */
  ghost predicate KeptFrom(parts: seq<Part>, from: nat, g: Inputs) {
    forall k :: 0 <= k < |parts| ==>
      from <= parts[k].section.Position() && Present(parts[k].section, g) && parts[k].body == BodyFor(parts[k].section, g)
  }

  /** Every present section at position `from` or later has a part. */
  ghost predicate CoversFrom(parts: seq<Part>, from: nat, g: Inputs) {
    forall p :: from <= p < 4 && Present(SectionAt(p), g) ==> HasSection(parts, SectionAt(p))
  }

  /** One part for each present section at position `from` or later, in section order. */
  function Keep(from: nat, g: Inputs): (parts: seq<Part>)
    requires from <= 4
    ensures KeptFrom(parts, from, g)
    ensures Ordered(parts)
    ensures CoversFrom(parts, from, g)
    decreases 4 - from
  {
    if from == 4 then []
    else
      var rest := Keep(from + 1, g);
      var s0 := SectionAt(from);
      if Present(s0, g) then
        KeepCons(from, g, rest);
        [Part(s0, BodyFor(s0, g))] + rest
      else
        assert CoversFrom(rest, from, g) by {
          forall p | from <= p < 4 && Present(SectionAt(p), g)
            ensures HasSection(rest, SectionAt(p))
          {
            assert p != from;
          }
        }
        rest
  }

  /** Putting the part of the present section at `from` in front of the parts kept from `from + 1`. */
  lemma KeepCons(from: nat, g: Inputs, rest: seq<Part>)
    requires from < 4 && Present(SectionAt(from), g)
    requires KeptFrom(rest, from + 1, g) && Ordered(rest) && CoversFrom(rest, from + 1, g)
    ensures var parts := [Part(SectionAt(from), BodyFor(SectionAt(from), g))] + rest;
            KeptFrom(parts, from, g) && Ordered(parts) && CoversFrom(parts, from, g)
  {
    var parts := [Part(SectionAt(from), BodyFor(SectionAt(from), g))] + rest;
    assert forall k :: 0 < k < |parts| ==> parts[k] == rest[k - 1];
    forall i, j | 0 <= i < j < |parts|
      ensures parts[i].section.Position() < parts[j].section.Position()
    {
      assert parts[j] == rest[j - 1];
      if i > 0 {
        assert parts[i] == rest[i - 1];
      }
    }
    forall q | from <= q < 4 && Present(SectionAt(q), g)
      ensures HasSection(parts, SectionAt(q))
    {
      if q == from {
        assert parts[0].section == SectionAt(q);
      } else {
        var k :| 0 <= k < |rest| && rest[k].section == SectionAt(q);
        assert parts[k + 1].section == SectionAt(q);
      }
    }
  }

  /** The parts of the embedding text: one per non-empty input, in fixed section order. */
  function EmbeddingParts(name: string, description: string, readme: string, keywords: seq<string>): (parts: seq<Part>)
    ensures forall i, j :: 0 <= i < j < |parts| ==> parts[i].section.Position() < parts[j].section.Position()
    ensures HasSection(parts, GemSection) <==> name != []
    ensures HasSection(parts, DescriptionSection) <==> description != []
    ensures HasSection(parts, KeywordsSection) <==> keywords != []
    ensures HasSection(parts, DocumentationSection) <==> readme != []
    ensures forall k :: 0 <= k < |parts| ==>
      parts[k].body == BodyFor(parts[k].section, Inputs(name, description, readme, keywords))
  {
    var g := Inputs(name, description, readme, keywords);
    var parts := Keep(0, g);
    HasIffPresent(parts, g, GemSection);
    HasIffPresent(parts, g, DescriptionSection);
    HasIffPresent(parts, g, KeywordsSection);
    HasIffPresent(parts, g, DocumentationSection);
    parts
  }

  /** Parts kept from the start cover exactly the present sections. */
  lemma HasIffPresent(parts: seq<Part>, g: Inputs, s: Section)
    requires KeptFrom(parts, 0, g) && CoversFrom(parts, 0, g)
    ensures HasSection(parts, s) <==> Present(s, g)
  {
    if HasSection(parts, s) {
      var k :| 0 <= k < |parts| && parts[k].section == s;
    }
    if Present(s, g) {
      assert SectionAt(s.Position()) == s;
    }
  }

  /** The text a gem is embedded from: its rendered parts, one per line. */
  function EmbeddingText(name: string, description: string, readme: string, keywords: seq<string>): (r: string)
    ensures r == [] <==> name == [] && description == [] && readme == [] && keywords == []
  {
    var parts := EmbeddingParts(name, description, readme, keywords);
    var lines := Sorting.MapSeq(parts, Render);
    assert |parts| > 0 ==> |Text.Join(lines, "\n")| > 0 by {
      if |parts| > 0 {
        assert |lines[0]| >= |parts[0].section.Label()| > 0;
        JoinStartsWith(lines, "\n");
      }
    }
    assert |parts| == 0 ==> name == [] && description == [] && readme == [] && keywords == [] by {
      if |parts| == 0 {
        assert !HasSection(parts, GemSection) && !HasSection(parts, DescriptionSection);
        assert !HasSection(parts, KeywordsSection) && !HasSection(parts, DocumentationSection);
      }
    }
    Text.Join(lines, "\n")
  }

  lemma JoinStartsWith(parts: seq<string>, sep: string)
    requires |parts| >= 1
    ensures |Text.Join(parts, sep)| >= |parts[0]|
  {
  }

  /**
   * Every rendered part is found in the embedding text, whatever the inputs
   * hold: "Gem: <name>" for a non-empty name, "Description: ..." for a
   * non-empty description, "Keywords: " with the keywords joined by ", ", and
   * "Documentation: " with the README cut to its limit.
   */
  lemma EmbeddingTextContains(name: string, description: string, readme: string, keywords: seq<string>)
    ensures var text := EmbeddingText(name, description, readme, keywords);
            && (forall p :: p in EmbeddingParts(name, description, readme, keywords) ==> Text.Contains(text, Render(p)))
            && (name != [] ==> Text.Contains(text, "Gem: " + name))
            && (description != [] ==> Text.Contains(text, "Description: " + description))
            && (keywords != [] ==> Text.Contains(text, "Keywords: " + Text.Join(keywords, ", ")))
            && (readme != [] ==> Text.Contains(text, "Documentation: " + TruncateReadme(readme)))
  {
    var parts := EmbeddingParts(name, description, readme, keywords);
    var text := EmbeddingText(name, description, readme, keywords);
    var g := Inputs(name, description, readme, keywords);
    PartsFound(parts, text);
    if name != [] { SectionFound(parts, g, text, GemSection); }
    if description != [] { SectionFound(parts, g, text, DescriptionSection); }
    if keywords != [] { SectionFound(parts, g, text, KeywordsSection); }
    if readme != [] { SectionFound(parts, g, text, DocumentationSection); }
  }

  /** Each part rendered into a line-joined text is found in it. */
  lemma PartsFound(parts: seq<Part>, text: string)
    requires text == Text.Join(Sorting.MapSeq(parts, Render), "\n")
    ensures forall p :: p in parts ==> Text.Contains(text, Render(p))
  {
    var lines := Sorting.MapSeq(parts, Render);
    forall p | p in parts
      ensures Text.Contains(text, Render(p))
    {
      var k :| 0 <= k < |parts| && parts[k] == p;
      Text.JoinContains(lines, "\n", k);
    }
  }

  /** A section that has a part carrying its body is found in a text holding every rendered part. */
  lemma SectionFound(parts: seq<Part>, g: Inputs, text: string, s: Section)
    requires HasSection(parts, s)
    requires forall k :: 0 <= k < |parts| ==> parts[k].body == BodyFor(parts[k].section, g)
    requires forall p :: p in parts ==> Text.Contains(text, Render(p))
    ensures Text.Contains(text, s.Label() + BodyFor(s, g))
  {
    var k :| 0 <= k < |parts| && parts[k].section == s;
    assert parts[k] in parts;
  }

  /**
   * When no input holds a line break, splitting the embedding text at line
   * breaks gives back exactly the rendered parts.
   */
  lemma EmbeddingTextLines(name: string, description: string, readme: string, keywords: seq<string>)
    requires '\n' !in name && '\n' !in description && '\n' !in readme
    requires forall k :: 0 <= k < |keywords| ==> '\n' !in keywords[k]
    requires name != [] || description != [] || readme != [] || keywords != []
    ensures Text.Split(EmbeddingText(name, description, readme, keywords), '\n')
         == Sorting.MapSeq(EmbeddingParts(name, description, readme, keywords), Render)
  {
    var parts := EmbeddingParts(name, description, readme, keywords);
    var lines := Sorting.MapSeq(parts, Render);
    var g := Inputs(name, description, readme, keywords);
    forall k | 0 <= k < |lines|
      ensures '\n' !in lines[k]
    {
      LabelAvoidsBreak(parts[k].section);
      BodyAvoidsBreak(parts[k].section, g);
      assert lines[k] == parts[k].section.Label() + parts[k].body;
    }
    Text.SplitJoin(lines, '\n');
  }

  lemma LabelAvoidsBreak(section: Section)
    ensures '\n' !in section.Label()
  {
    match section
    case GemSection => assert "Gem: " == ['G', 'e', 'm', ':', ' '];
    case DescriptionSection =>
      assert "Description: " == ['D', 'e', 's', 'c', 'r', 'i', 'p', 't', 'i', 'o', 'n', ':', ' '];
    case KeywordsSection => assert "Keywords: " == ['K', 'e', 'y', 'w', 'o', 'r', 'd', 's', ':', ' '];
    case DocumentationSection =>
      assert "Documentation: " == ['D', 'o', 'c', 'u', 'm', 'e', 'n', 't', 'a', 't', 'i', 'o', 'n', ':', ' '];
  }

  /** A section built from inputs without line breaks has none in its body. */
  lemma BodyAvoidsBreak(section: Section, g: Inputs)
    requires '\n' !in g.name && '\n' !in g.description && '\n' !in g.readme
    requires forall k :: 0 <= k < |g.keywords| ==> '\n' !in g.keywords[k]
    ensures '\n' !in BodyFor(section, g)
  {
    match section
    case GemSection =>
    case DescriptionSection =>
    case KeywordsSection =>
      Text.JoinAvoids(g.keywords, ", ", '\n');
    case DocumentationSection =>
      var t := TruncateReadme(g.readme);
      assert g.readme == t + g.readme[|t|..];
  }

  // ---------------------------------------------------------------------------
  // The metadata table and the index counter
  // ---------------------------------------------------------------------------

  /**
   * A gem's metadata as handed to `add_gem`: the name is missing (None) or
   * given; every other key is absent, `None` or given.
   */
  datatype GemData = GemData(
    name: Option<string>,
    description: Field<string>,
    keywords: Field<seq<string>>,
    version: Field<string>,
    homepage: Field<string>,
    sourceCodeUri: Field<string>,
    downloadCount: Field<int>,
    stars: Field<int>,
    lastUpdated: Field<string>)

  /**
   * One row of the `gems` table; `keywords` holds the JSON text of the list,
   * and None is SQL `NULL` in a nullable column.
   */
  datatype Row = Row(
    rowId: nat,
    name: string,
    description: Option<string>,
    readme: string,
    keywords: string,
    version: Option<string>,
    homepage: Option<string>,
    sourceCodeUri: Option<string>,
    downloadCount: Option<int>,
    stars: Option<int>,
    lastUpdated: Option<string>,
    vectorId: int)

  /**
   * The store: the index (None until first used, then its vector count), the
   * table's rows in insertion order, and the last row id handed out.
   */
  datatype Store = Store(index: Option<nat>, rows: seq<Row>, lastRowId: nat)

  const Empty := Store(None, [], 0)

  /** The index's vector count, 0 while there is no index. */
  function IndexSize(s: Store): nat {
    s.index.GetOr(0)
  }

  function NameOf(gem: GemData): string {
    gem.name.GetOr("")
  }

  /** The keyword list as stored: an absent or `None` list is stored as the empty one. */
  function KeywordsOf(gem: GemData): (r: seq<string>)
    ensures gem.keywords.Given? ==> r == gem.keywords.value
    ensures !gem.keywords.Given? ==> r == []
  {
    match gem.keywords
    case Given(k) => k
    case _ => []
  }

  ghost predicate UniqueNames(rows: seq<Row>) {
    forall i, j :: 0 <= i < j < |rows| ==> rows[i].name != rows[j].name
  }

  ghost predicate UniqueVectors(rows: seq<Row>) {
    forall i, j :: 0 <= i < j < |rows| ==> rows[i].vectorId != rows[j].vectorId
  }

  /** What holds of every store reached from `Empty` through `AddGem`. */
  ghost predicate Valid(s: Store) {
    && (s.index.None? ==> s.rows == [])
    && UniqueNames(s.rows)
    && UniqueVectors(s.rows)
    && |s.rows| <= IndexSize(s)
    && (forall k :: 0 <= k < |s.rows| ==> 0 <= s.rows[k].vectorId < IndexSize(s))
    && (forall k :: 0 <= k < |s.rows| ==> 0 < s.rows[k].rowId <= s.lastRowId)
    && (forall k :: 0 <= k < |s.rows| ==> JsonList.Decode(s.rows[k].keywords).Some?)
  }

  /** The keywords column: the list's JSON text, `[]` when the list is empty. */
  function KeywordsColumn(keywords: seq<string>): (r: string)
    ensures JsonList.Decode(r) == Some(keywords)
  {
    JsonList.RoundTrip(keywords);
    if keywords == [] then "[]" else JsonList.Encode(keywords)
  }

  /** The rows whose name differs from `name`, in their order: what `OR REPLACE` deletes first. */
  function WithoutName(rows: seq<Row>, name: string): (r: seq<Row>)
    ensures |r| <= |rows|
    ensures forall x :: x in r <==> x in rows && x.name != name
  {
    if rows == [] then []
    else
      var rest := WithoutName(rows[1..], name);
      assert forall x :: x in rows <==> x == rows[0] || x in rows[1..] by {
        assert rows == [rows[0]] + rows[1..];
      }
      if rows[0].name == name then rest else [rows[0]] + rest
  }

  lemma UniqueTail(rows: seq<Row>)
    requires rows != []
    ensures UniqueNames(rows) ==> UniqueNames(rows[1..])
    ensures UniqueVectors(rows) ==> UniqueVectors(rows[1..])
    ensures forall x :: x in rows[1..] ==> x in rows
  {
    assert forall i :: 0 <= i < |rows[1..]| ==> rows[1..][i] == rows[i + 1];
  }

  /** With unique names or vector ids, the first row's differ from every later row's. */
  lemma HeadFresh(rows: seq<Row>)
    requires rows != []
    ensures UniqueNames(rows) ==> forall x :: x in rows[1..] ==> x.name != rows[0].name
    ensures UniqueVectors(rows) ==> forall x :: x in rows[1..] ==> x.vectorId != rows[0].vectorId
  {
    forall x | x in rows[1..]
      ensures UniqueNames(rows) ==> x.name != rows[0].name
      ensures UniqueVectors(rows) ==> x.vectorId != rows[0].vectorId
    {
      var j :| 0 <= j < |rows[1..]| && rows[1..][j] == x;
      assert rows[j + 1] == x;
    }
  }

  /** Deleting rows keeps names unique. */
  lemma {:induction false} WithoutNameUniqueNames(rows: seq<Row>, name: string)
    requires UniqueNames(rows)
    ensures UniqueNames(WithoutName(rows, name))
  {
    if rows != [] {
      UniqueTail(rows);
      HeadFresh(rows);
      WithoutNameUniqueNames(rows[1..], name);
      var rest := WithoutName(rows[1..], name);
      if rows[0].name != name {
        var r := [rows[0]] + rest;
        forall i, j | 0 <= i < j < |r| ensures r[i].name != r[j].name {
          assert r[j] == rest[j - 1];
          if i > 0 {
            assert r[i] == rest[i - 1];
          }
        }
      }
    }
  }

  /** Deleting rows keeps vector ids unique. */
  lemma {:induction false} WithoutNameUniqueVectors(rows: seq<Row>, name: string)
    requires UniqueVectors(rows)
    ensures UniqueVectors(WithoutName(rows, name))
  {
    if rows != [] {
      UniqueTail(rows);
      HeadFresh(rows);
      WithoutNameUniqueVectors(rows[1..], name);
      var rest := WithoutName(rows[1..], name);
      if rows[0].name != name {
        var r := [rows[0]] + rest;
        forall i, j | 0 <= i < j < |r| ensures r[i].vectorId != r[j].vectorId {
          assert r[j] == rest[j - 1];
          if i > 0 {
            assert r[i] == rest[i - 1];
          }
        }
      }
    }
  }

  /** Deleting a name no row has changes nothing. */
  lemma {:induction false} WithoutAbsentName(rows: seq<Row>, name: string)
    requires forall x :: x in rows ==> x.name != name
    ensures WithoutName(rows, name) == rows
  {
    if rows != [] {
      UniqueTail(rows);
      WithoutAbsentName(rows[1..], name);
      assert [rows[0]] + rows[1..] == rows;
    }
  }

  /** The first row with the given name (a table lookup by the unique name). */
  function Lookup(rows: seq<Row>, name: string): (r: Option<Row>)
    ensures r.Some? ==> r.value in rows && r.value.name == name
    ensures r.None? ==> forall x :: x in rows ==> x.name != name
  {
    if rows == [] then None
    else if rows[0].name == name then Some(rows[0])
    else
      assert forall x :: x in rows ==> x == rows[0] || x in rows[1..];
      Lookup(rows[1..], name)
  }

  /** With unique names, a row is the one found by its name. */
  lemma LookupFinds(rows: seq<Row>, x: Row)
    requires UniqueNames(rows)
    requires x in rows
    ensures Lookup(rows, x.name) == Some(x)
  {
    var y := Lookup(rows, x.name).value;
    var i :| 0 <= i < |rows| && rows[i] == x;
    var j :| 0 <= j < |rows| && rows[j] == y;
    assert i == j;
  }

  /**
   * `add_gem`: without its dependencies the store is unchanged and the result
   * is -1. Otherwise the gem's vector takes the next index position, any row
   * with the same name is replaced by a new row at the end of the table, and
   * the new row's id is returned. Absent fields take their defaults (a
   * missing `last_updated` takes the current time `now`); a field given as
   * `None` is stored as `NULL`, except the keyword list, stored as `[]`.
   */
  function AddGem(s: Store, hasDeps: bool, gem: GemData, readme: string, now: string): (r: (Store, int))
    ensures !hasDeps ==> r == (s, -1)
    ensures hasDeps ==> r.0.index == Some(IndexSize(s) + 1)
    ensures hasDeps ==> r.1 == r.0.lastRowId > s.lastRowId
    ensures hasDeps ==>
      var rows := r.0.rows;
      && |rows| > 0
      && rows[|rows| - 1].name == NameOf(gem)
      && (forall k :: 0 <= k < |rows| - 1 ==> rows[k].name != NameOf(gem))
    ensures hasDeps ==> forall x :: x in r.0.rows && x.name == NameOf(gem) ==>
      && x.rowId == r.1
      && x.vectorId == IndexSize(s)
      && JsonList.Decode(x.keywords) == Some(KeywordsOf(gem))
      && x.description == gem.description.Get("")
      && x.readme == readme
      && x.version == gem.version.Get("")
      && x.homepage == gem.homepage.Get("")
      && x.sourceCodeUri == gem.sourceCodeUri.Get("")
      && x.downloadCount == gem.downloadCount.Get(0)
      && x.stars == gem.stars.Get(0)
      && x.lastUpdated == gem.lastUpdated.Get(now)
    ensures hasDeps ==> forall x: Row :: x.name != NameOf(gem) ==> (x in r.0.rows <==> x in s.rows)
  {
    if !hasDeps then (s, -1)
    else
      var size := IndexSize(s);
      var id := s.lastRowId + 1;
      var row := Row(
        id, NameOf(gem), gem.description.Get(""), readme,
        KeywordsColumn(KeywordsOf(gem)),
        gem.version.Get(""), gem.homepage.Get(""), gem.sourceCodeUri.Get(""),
        gem.downloadCount.Get(0), gem.stars.Get(0), gem.lastUpdated.Get(now),
        size);
      var rest := WithoutName(s.rows, NameOf(gem));
      var rows := rest + [row];
      assert forall k :: 0 <= k < |rows| - 1 ==> rows[k] in rest;
      assert forall x :: x in rows <==> x in rest || x == row;
      (Store(Some(size + 1), rows, id), id)
  }

  /** `AddGem` keeps the store valid. */
  lemma AddGemValid(s: Store, hasDeps: bool, gem: GemData, readme: string, now: string)
    requires Valid(s)
    ensures Valid(AddGem(s, hasDeps, gem, readme, now).0)
  {
    if hasDeps {
      var t := AddGem(s, hasDeps, gem, readme, now).0;
      var rest := WithoutName(s.rows, NameOf(gem));
      WithoutNameUniqueNames(s.rows, NameOf(gem));
      WithoutNameUniqueVectors(s.rows, NameOf(gem));
      var row := t.rows[|t.rows| - 1];
      assert t.rows == rest + [row];
      forall k | 0 <= k < |t.rows|
        ensures 0 <= t.rows[k].vectorId < IndexSize(t)
        ensures 0 < t.rows[k].rowId <= t.lastRowId
        ensures JsonList.Decode(t.rows[k].keywords).Some?
      {
        if k < |rest| {
          assert rest[k] in s.rows;
        }
      }
      assert UniqueNames(t.rows);
      assert UniqueVectors(t.rows) by {
        forall i, j | 0 <= i < j < |t.rows|
          ensures t.rows[i].vectorId != t.rows[j].vectorId
        {
          if j < |rest| {
          } else {
            assert rest[i] in s.rows;
          }
        }
      }
    }
  }

  /** One call to `add_gem` with the dependencies present. */
  datatype Addition = Addition(gem: GemData, readme: string, now: string)

  /** The store after the given additions, in order. */
  function Replay(s: Store, adds: seq<Addition>): Store
    decreases |adds|
  {
    if adds == [] then s
    else
      var a := adds[0];
      Replay(AddGem(s, true, a.gem, a.readme, a.now).0, adds[1..])
  }

  /**
   * However gems are added, the store stays valid, the index holds one vector
   * per addition, and there are never more rows than vectors.
   */
  lemma {:induction false} ReplayValid(s: Store, adds: seq<Addition>)
    requires Valid(s)
    ensures Valid(Replay(s, adds))
    ensures IndexSize(Replay(s, adds)) == IndexSize(s) + |adds|
    ensures |Replay(s, adds).rows| <= IndexSize(Replay(s, adds))
    decreases |adds|
  {
    if adds != [] {
      var a := adds[0];
      AddGemValid(s, true, a.gem, a.readme, a.now);
      ReplayValid(AddGem(s, true, a.gem, a.readme, a.now).0, adds[1..]);
    }
  }

  /**
   * Adding a name that already has a row replaces the row but not its vector:
   * the old vector id is left without a row, and the index outgrows the table.
   */
  lemma ReAddOrphansVector(s: Store, gem: GemData, readme: string, now: string)
    requires Valid(s)
    requires Lookup(s.rows, NameOf(gem)).Some?
    ensures var t := AddGem(s, true, gem, readme, now).0;
            && |t.rows| == |s.rows|
            && |t.rows| < IndexSize(t)
            && forall x :: x in t.rows ==> x.vectorId != Lookup(s.rows, NameOf(gem)).value.vectorId
  {
    var t := AddGem(s, true, gem, readme, now).0;
    var prev := Lookup(s.rows, NameOf(gem)).value;
    var i :| 0 <= i < |s.rows| && s.rows[i] == prev;
    var rest := WithoutName(s.rows, NameOf(gem));
    assert t.rows == rest + [t.rows[|t.rows| - 1]];
    RemoveOne(s.rows, i);
    forall x | x in t.rows
      ensures x.vectorId != prev.vectorId
    {
      if x in rest {
        var j :| 0 <= j < |s.rows| && s.rows[j] == x;
        assert j != i;
      }
    }
  }

  /** With unique names, removing the name of the row at `i` removes exactly that row. */
  lemma {:induction false} RemoveOne(rows: seq<Row>, i: nat)
    requires UniqueNames(rows)
    requires i < |rows|
    ensures |WithoutName(rows, rows[i].name)| == |rows| - 1
  {
    var name := rows[i].name;
    UniqueTail(rows);
    if i == 0 {
      forall x | x in rows[1..] ensures x.name != name {
        var j :| 0 <= j < |rows[1..]| && rows[1..][j] == x;
        assert rows[j + 1] == x;
      }
      WithoutAbsentName(rows[1..], name);
    } else {
      assert rows[1..][i - 1] == rows[i];
      RemoveOne(rows[1..], i - 1);
    }
  }

  // ---------------------------------------------------------------------------
  // Statistics
  // ---------------------------------------------------------------------------

  datatype Stats = Stats(totalGems: nat, indexSize: nat)

  /** `get_stats`: the table's row count and the index's vector count. */
  function GetStats(s: Store): Stats {
    Stats(|s.rows|, IndexSize(s))
  }

  /**
   * Each addition grows the index by one; the table grows by one only for a
   * new name; and a valid store never counts more gems than vectors.
   */
  lemma AddGemStats(s: Store, gem: GemData, readme: string, now: string)
    requires Valid(s)
    ensures GetStats(s).totalGems <= GetStats(s).indexSize
    ensures var after := GetStats(AddGem(s, true, gem, readme, now).0);
            && after.indexSize == GetStats(s).indexSize + 1
            && after.totalGems == GetStats(s).totalGems + (if Lookup(s.rows, NameOf(gem)).Some? then 0 else 1)
  {
    var t := AddGem(s, true, gem, readme, now).0;
    assert t.rows == WithoutName(s.rows, NameOf(gem)) + [t.rows[|t.rows| - 1]];
    if Lookup(s.rows, NameOf(gem)).Some? {
      ReAddOrphansVector(s, gem, readme, now);
    } else {
      WithoutAbsentName(s.rows, NameOf(gem));
    }
  }

  // ---------------------------------------------------------------------------
  // Search
  // ---------------------------------------------------------------------------

  /** One hit of the index's search: an opaque score and a vector id, -1 for none. */
  datatype Hit<S> = Hit(score: S, idx: int)

  /** One search result: the row's fields (`NULL` as None), the decoded keywords, the hit's score and its 1-based rank. */
  datatype Found<S> = Found(
    name: string,
    description: Option<string>,
    keywords: seq<string>,
    version: Option<string>,
    homepage: Option<string>,
    sourceCodeUri: Option<string>,
    downloadCount: Option<int>,
    stars: Option<int>,
    lastUpdated: Option<string>,
    score: S,
    rank: nat)

  /** The first row holding vector `v`. */
  function RowWithVector(rows: seq<Row>, v: int): (r: Option<Row>)
    ensures r.Some? ==> r.value in rows && r.value.vectorId == v
    ensures r.None? ==> forall x :: x in rows ==> x.vectorId != v
  {
    if rows == [] then None
    else if rows[0].vectorId == v then Some(rows[0])
    else
      assert forall x :: x in rows ==> x == rows[0] || x in rows[1..];
      RowWithVector(rows[1..], v)
  }

  /** With unique vector ids, a row is the one found by its vector id. */
  lemma RowWithVectorFinds(rows: seq<Row>, x: Row)
    requires UniqueVectors(rows)
    requires x in rows
    ensures RowWithVector(rows, x.vectorId) == Some(x)
  {
    var y := RowWithVector(rows, x.vectorId).value;
    var i :| 0 <= i < |rows| && rows[i] == x;
    var j :| 0 <= j < |rows| && rows[j] == y;
    assert i == j;
  }

  /** The keywords column read back: an empty column is the empty list. */
  function ReadKeywords(column: string): Option<seq<string>> {
    if column == [] then Some([]) else JsonList.Decode(column)
  }

  /** The hit names a vector and some row holds it. */
  predicate Usable<S>(rows: seq<Row>, h: Hit<S>) {
    h.idx != -1 && RowWithVector(rows, h.idx).Some?
  }

  /** The hit's row has a keywords column that cannot be read back. */
  predicate Unreadable<S>(rows: seq<Row>, h: Hit<S>) {
    Usable(rows, h) && ReadKeywords(RowWithVector(rows, h.idx).value.keywords).None?
  }

  /** The result copies the row of the hit at position `rank - 1`, and that hit's score. */
  ghost predicate Describes<S>(rows: seq<Row>, hits: seq<Hit<S>>, f: Found<S>) {
    && 1 <= f.rank <= |hits|
    && Usable(rows, hits[f.rank - 1])
    && var row := RowWithVector(rows, hits[f.rank - 1].idx).value;
       && f.name == row.name
       && f.description == row.description
       && ReadKeywords(row.keywords) == Some(f.keywords)
       && f.version == row.version
       && f.homepage == row.homepage
       && f.sourceCodeUri == row.sourceCodeUri
       && f.downloadCount == row.downloadCount
       && f.stars == row.stars
       && f.lastUpdated == row.lastUpdated
       && f.score == hits[f.rank - 1].score
  }

  /** The result for a hit on `row` at position `rank - 1`, with the row's keywords read back as `keywords`. */
  function FoundOf<S>(row: Row, keywords: seq<string>, score: S, rank: nat): Found<S> {
    Found(row.name, row.description, keywords, row.version, row.homepage, row.sourceCodeUri,
          row.downloadCount, row.stars, row.lastUpdated, score, rank)
  }

  /**
   * The results for the hits from position `from` on: hits with id -1 or
   * without a row are skipped; None when some row's keywords cannot be read
   * (the decoding error propagates).
   */
  function Collect<S>(rows: seq<Row>, hits: seq<Hit<S>>, from: nat): (r: Option<seq<Found<S>>>)
    requires from <= |hits|
    ensures r.Some? ==> |r.value| <= |hits| - from
    ensures r.Some? ==> forall k :: 0 <= k < |r.value| ==> from < r.value[k].rank <= |hits|
    ensures r.Some? ==> forall k, l :: 0 <= k < l < |r.value| ==> r.value[k].rank < r.value[l].rank
    decreases |hits| - from
  {
    if from == |hits| then Some([])
    else
      var h := hits[from];
      match Collect(rows, hits, from + 1)
      case None => None
      case Some(rest) =>
        if h.idx == -1 then Some(rest)
        else
          match RowWithVector(rows, h.idx)
          case None => Some(rest)
          case Some(row) =>
            match ReadKeywords(row.keywords)
            case None => None
            case Some(ks) =>
              var r := [FoundOf(row, ks, h.score, from + 1)] + rest;
              assert forall k :: 0 < k < |r| ==> r[k] == rest[k - 1];
              Some(r)
  }

  /** Collecting fails exactly when some usable hit's row has unreadable keywords. */
  lemma {:induction false} CollectFails<S>(rows: seq<Row>, hits: seq<Hit<S>>, from: nat)
    requires from <= |hits|
    ensures Collect(rows, hits, from).None? <==> exists i :: from <= i < |hits| && Unreadable(rows, hits[i])
    decreases |hits| - from
  {
    if from < |hits| {
      CollectFails(rows, hits, from + 1);
      if exists i :: from + 1 <= i < |hits| && Unreadable(rows, hits[i]) {
        var i :| from + 1 <= i < |hits| && Unreadable(rows, hits[i]);
      }
    }
  }

  /** Every collected result describes the row and score of the hit its rank points to. */
  lemma {:induction false} CollectSound<S>(rows: seq<Row>, hits: seq<Hit<S>>, from: nat)
    requires from <= |hits|
    ensures var r := Collect(rows, hits, from);
            r.Some? ==> forall k :: 0 <= k < |r.value| ==> Describes(rows, hits, r.value[k])
    decreases |hits| - from
  {
    if from < |hits| {
      CollectSound(rows, hits, from + 1);
      var r := Collect(rows, hits, from);
      if r.Some? && Collect(rows, hits, from + 1).Some? && |r.value| > |Collect(rows, hits, from + 1).value| {
        var rest := Collect(rows, hits, from + 1).value;
        assert r.value == [r.value[0]] + rest;
        assert Describes(rows, hits, r.value[0]);
      }
    }
  }

  /** Every usable hit gives a result, ranked by its position. */
  lemma {:induction false} CollectComplete<S>(rows: seq<Row>, hits: seq<Hit<S>>, from: nat, i: nat)
    requires from <= i < |hits|
    requires Usable(rows, hits[i])
    requires Collect(rows, hits, from).Some?
    ensures var r := Collect(rows, hits, from).value;
            exists k :: 0 <= k < |r| && r[k].rank == i + 1
    decreases |hits| - from
  {
    var r := Collect(rows, hits, from).value;
    CollectStep(rows, hits, from);
    if i == from {
      assert r[0].rank == i + 1;
    } else {
      CollectComplete(rows, hits, from + 1, i);
      var rest := Collect(rows, hits, from + 1).value;
      var k :| 0 <= k < |rest| && rest[k].rank == i + 1;
      if Usable(rows, hits[from]) {
        assert r[k + 1] == rest[k];
      } else {
        assert r[k] == rest[k];
      }
    }
  }

  /** One step of collecting: a usable hit puts its result in front, any other hit adds nothing. */
  lemma CollectStep<S>(rows: seq<Row>, hits: seq<Hit<S>>, from: nat)
    requires from < |hits|
    requires Collect(rows, hits, from).Some?
    ensures Collect(rows, hits, from + 1).Some?
    ensures var r := Collect(rows, hits, from).value;
            var rest := Collect(rows, hits, from + 1).value;
            && (Usable(rows, hits[from]) ==> |r| == |rest| + 1 && r[0].rank == from + 1 && r[1..] == rest)
            && (!Usable(rows, hits[from]) ==> r == rest)
  {
  }

  /**
   * `search`, given the index's hits for the query: nothing without the
   * dependencies or with an empty index; otherwise one result per usable hit,
   * ranked by the hit's position.
   */
  function Search<S>(s: Store, hasDeps: bool, hits: seq<Hit<S>>): (r: Option<seq<Found<S>>>)
    ensures !hasDeps || IndexSize(s) == 0 ==> r == Some([])
    ensures Valid(s) ==> r.Some?
    ensures r.Some? ==> |r.value| <= |hits|
    ensures r.Some? ==> forall k :: 0 <= k < |r.value| ==> Describes(s.rows, hits, r.value[k])
    ensures r.Some? ==> forall k, l :: 0 <= k < l < |r.value| ==> r.value[k].rank < r.value[l].rank
  {
    if !hasDeps || IndexSize(s) == 0 then Some([])
    else
      CollectFails(s.rows, hits, 0);
      CollectSound(s.rows, hits, 0);
      Collect(s.rows, hits, 0)
  }

  /** With the dependencies and a non-empty index, every usable hit gives a result at its rank. */
  lemma SearchComplete<S>(s: Store, hits: seq<Hit<S>>, i: nat)
    requires IndexSize(s) > 0
    requires i < |hits| && Usable(s.rows, hits[i])
    requires Search(s, true, hits).Some?
    ensures var r := Search(s, true, hits).value;
            exists k :: 0 <= k < |r| && r[k].rank == i + 1
  {
    CollectComplete(s.rows, hits, 0, i);
  }

  /**
   * A gem just added is found by a hit on its vector id, at that hit's rank,
   * with the keywords it was added with and every other field as stored: its
   * default when absent, None when given as `None`.
   */
  lemma AddThenSearch<S>(s: Store, gem: GemData, readme: string, now: string, hits: seq<Hit<S>>, i: nat)
    requires Valid(s)
    requires i < |hits| && hits[i].idx == IndexSize(s)
    ensures var r := Search(AddGem(s, true, gem, readme, now).0, true, hits);
            && r.Some?
            && exists k :: 0 <= k < |r.value| && r.value[k].rank == i + 1
                 && r.value[k].name == NameOf(gem)
                 && r.value[k].keywords == KeywordsOf(gem)
                 && r.value[k].description == gem.description.Get("")
                 && r.value[k].version == gem.version.Get("")
                 && r.value[k].homepage == gem.homepage.Get("")
                 && r.value[k].sourceCodeUri == gem.sourceCodeUri.Get("")
                 && r.value[k].downloadCount == gem.downloadCount.Get(0)
                 && r.value[k].stars == gem.stars.Get(0)
                 && r.value[k].lastUpdated == gem.lastUpdated.Get(now)
                 && r.value[k].score == hits[i].score
  {
    var t := AddGem(s, true, gem, readme, now).0;
    AddGemValid(s, true, gem, readme, now);
    AddedRow(s, gem, readme, now);
    var r := Search(t, true, hits);
    SearchComplete(t, hits, i);
    var k :| 0 <= k < |r.value| && r.value[k].rank == i + 1;
    assert Describes(t.rows, hits, r.value[k]);
    assert t.rows[|t.rows| - 1] in t.rows;
  }

  /** The row an addition appends is the one its vector id finds, with the gem's name and readable keywords. */
  lemma AddedRow(s: Store, gem: GemData, readme: string, now: string)
    requires Valid(s)
    ensures var t := AddGem(s, true, gem, readme, now).0;
            && IndexSize(t) > 0
            && RowWithVector(t.rows, IndexSize(s)) == Some(t.rows[|t.rows| - 1])
            && t.rows[|t.rows| - 1].name == NameOf(gem)
            && ReadKeywords(t.rows[|t.rows| - 1].keywords) == Some(KeywordsOf(gem))
  {
    var t := AddGem(s, true, gem, readme, now).0;
    AddGemValid(s, true, gem, readme, now);
    var row := t.rows[|t.rows| - 1];
    assert row in t.rows;
    RowWithVectorFinds(t.rows, row);
    assert row.keywords != [] by {
      assert JsonList.Decode(row.keywords).Some?;
      assert JsonList.Decode([]).None?;
    }
  }
}

=== FILE: wrappers.dfy ===
/** The optional-value datatypes shared by every module of the model. */
module Wrappers {

  /** A value that may be missing: Python's `None` versus a present value. */
  datatype Option<+T> = None | Some(value: T) {

    /** The value if present, otherwise `default` (Python's `x or default`). */
    function GetOr(default: T): T {
      match this
      case Some(v) => v
      case None => default
    }
  }

  /**
   * A key of a decoded JSON object: absent, present with `null`, or present
   * with a value.
   */
  datatype Field<+T> = Absent | Null | Given(value: T) {

    /**
     * Python's `d.get(key, default)`: the default only when the key is
     * absent; a `null` value reads as `None`, not as the default.
     */
    function Get(default: T): (r: Option<T>)
      ensures this.Absent? ==> r == Some(default)
      ensures this.Null? <==> r.None?
      ensures this.Given? ==> r == Some(this.value)
    {
      match this
      case Absent => Some(default)
      case Null => None
      case Given(v) => Some(v)
    }
  }

  /** The field a present-or-`None` value is written as: `None` as `null`. */
  function FieldOf<T>(o: Option<T>): (f: Field<T>)
    ensures !f.Absent?
    ensures o.None? <==> f.Null?
    ensures o.Some? ==> f == Given(o.value)
  {
    match o
    case None => Null
    case Some(v) => Given(v)
  }
}
